=== FILE: README.md ===
# gradescope-calendar, modelled in Dafny

gradescope-calendar copies the assignments of a student's Gradescope courses
into a Google Calendar. One run of `gradescope-calendar.py` goes through five steps:

- It scrapes the course list and each course's assignment table: name, normal and late due date, and whether the assignment was submitted.
- It checks the user's colour settings against the calendar's event colour palette. It either stops with a list of invalid keys or writes a template settings file.
- It finds the calendar whose description carries the marker `<USE AS GRADESCOPE CALENDAR>`, or creates one.
- It lists that calendar's events once.
- It queues, on one batch request, an insert for every assignment that has no event and is due in the future, and a patch to the "Completed" colour for every completed assignment whose event is not cancelled. It then sends the batch.

The model follows the helpers of `utils.py` and the body of the script, one module per concern:

| module | file | models |
|---|---|---|
| `Base` | base.dfy | `Option`, `Result`, the exceptions a run can raise (`Fault`), and list comprehensions whose elements may raise |
| `Text` | text.dfy | Python's `str.strip`, `startswith` and substring `in` |
| `Timestamp` | timestamp.dfy | the `%Y-%m-%d %H:%M:%S %z` layout: parsing, formatting, conversion to an instant |
| `Html` | html.dfy | the parsed page: `element[i]`, `find`, `findall` |
| `Json` | json.dfy | settings values: truthiness, and `value in dict` with its `TypeError` |
| `Gradescope` | gradescope.dfy | URL formatting, assignment names and due dates (the Gradescope and Assignments regions of `utils.py`) |
| `Calendar` | calendar.dfy | paginated listing, the calendar predicate, the calendar search |
| `Events` | events.dfy | matching an assignment to an event, the event body, the batch |
| `Scrape` | scrape.dfy | the course list, the per-course assignment dict, the post-filter |
| `Colors` | colors.dfy | the colour-settings check, the invalid-key list and the template |
| `Sync` | sync.dfy | the nested reconcile loops and the requests they queue |
| `Script` | script.dfy | a whole run, from scraped pages to the batch sent |

How Python maps onto the model:

- Exceptions become `Err(fault)`. A run that raises before `event_update_batch.execute()` ends as `Crashed` and sends no batch. A calendar created before the exception (gradescope-calendar.py:91) remains, and `Crashed` records whether one was.
- Aware datetimes become instants: whole seconds since the epoch, compared as numbers.
- The pages fetched, the settings file, the palette, the id a newly created calendar gets and the current time are inputs. The decoded settings file is taken to be a JSON object.
- The colour check (gradescope-calendar.py:71) runs after every course page has been scraped (gradescope-calendar.py:31-58).

Where the code and its own comments disagree, the model follows the code:

- The colour check runs only when there are no settings, or when `"validate_colors"` is present and falsy. Leaving the key out, or setting it to `true`, skips it. This is the reverse of what the comment above it says (`Colors.ValidationRunsWhen`).

Behaviour the model keeps as written:

- A completed assignment's event is patched again on every run. Only a cancelled event is spared, whatever colour it already has (`Sync.StepAfterPatch`).
- The event listing is a snapshot taken before the loops. An assignment that appears twice in one run gets two inserts (`Sync.RepeatedAssignmentCreatedTwice`).

## Model

| member | source | states |
|---|---|---|
| Base.CollectSpec | gradescope-calendar.py:32-38 | a list comprehension whose element may raise succeeds exactly when every element does, holding each element's value at its position; otherwise it raises the fault of an element all of whose predecessors succeed |
| Base.PresentMembers | gradescope-calendar.py:42-50 | a comprehension with a condition keeps a value exactly when some element yields it |
| Base.CollectPresentSkipsNone | gradescope-calendar.py:49 | an element the condition rejects, and that raises nothing, changes nothing |
| Base.CollectAppend | gradescope-calendar.py:32-38 | a comprehension over two runs of elements raises the first run's fault, else the second run's, else holds the first run's values followed by the second's |
| Base.PresentAppend | gradescope-calendar.py:42-50 | a comprehension with a condition over two runs keeps the first run's values followed by the second's, so order and repeats are kept |
| Base.CollectPresentAppend | gradescope-calendar.py:42-50 | the same for a comprehension with a condition whose elements may raise: first fault in order, else the kept values of both runs in order |
| Text.Strip | utils.py:134 | the result is a slice `s[i..j]` of the input with only whitespace before `i` and from `j` on, and it neither starts nor ends with whitespace; a string already stripped is unchanged |
| Text.StripLeftIsSuffix | utils.py:134 | stripping the left end leaves a suffix of the input |
| Text.StripRightIsPrefix | utils.py:134 | stripping the right end leaves a prefix of the input |
| Text.ContainsIff | utils.py:81 | `sub in s` holds exactly when `sub` occurs in `s` at some position |
| Json.InKeys | gradescope-calendar.py:77 | `value in colors` is true exactly for a string key of the palette; a list or object value raises `TypeError` |
| Timestamp.Parse | utils.py:139-140 | a string accepted by the `%Y-%m-%d %H:%M:%S %z` layout denotes a valid calendar date, time and UTC offset |
| Timestamp.Format | utils.py:13 | formatting a valid timestamp yields a 25-character string of the layout (digits, separators and sign in place) |
| Timestamp.ParseFormat | utils.py:13 | parsing the formatted form of any valid timestamp gives that timestamp back |
| Timestamp.FormatParse | utils.py:13 | every accepted string is exactly the formatted form of what it parses to (no other spelling is accepted) |
| Timestamp.DaysInMonth | utils.py:139-140 | every month has 28 to 31 days |
| Timestamp.ParseLeapDay | utils.py:139-140 | a timestamp dated February 29 is accepted exactly when its year is a leap year (and its year, clock and offset fields are in range) |
| Timestamp.ToInstantEpoch | utils.py:139-140 | 1970-01-01 00:00:00 +0000 denotes instant 0 |
| Timestamp.ToInstantOffset | utils.py:139-140 | the same wall-clock time at offset `+hh:mm` is `3600*hh + 60*mm` seconds earlier than at `+0000`, and at `-hh:mm` that much later |
| Timestamp.ToInstantOrder | utils.py:139-140 | for two timestamps with the same offset, one instant is earlier exactly when its wall-clock reading is earlier, and equal readings give equal instants |
| Html.Child | gradescope-calendar.py:45-49 | `element[i]` succeeds exactly when `i` is below the number of children, and then is the child at index `i`; otherwise it raises `IndexError` |
| Html.FirstTagged | utils.py:133 | `find` returns nothing exactly when no child has the tag, else a child with the tag |
| Html.AllTagged | utils.py:137 | `findall` returns exactly the children with the tag |
| Html.AllTaggedAppend | utils.py:137 | `findall` over two runs of children returns the first run's matches followed by the second's |
| Html.AllTaggedAt | utils.py:137 | a child with the tag is in the result at the position given by the number of tagged children before it, and replacing it replaces exactly that entry |
| Gradescope.FormatGradescopeUrl | utils.py:58-59 | the URL is the Gradescope origin, one slash, then the path without its leading slash |
| Gradescope.FormatGradescopeUrlSlash | utils.py:58-59 | a path with and without a leading slash give the same URL |
| Gradescope.TransformOrDefault | utils.py:71-72 | the default when the data is absent, the transformed data otherwise |
| Gradescope.StripText | utils.py:134 | stripping an absent text raises; a present text yields `Strip` of it |
| Gradescope.GetAssignmentName | utils.py:132-134 | no `th` raises `TypeError` (length of `None`); otherwise the stripped text of the first child of `th` (or of `th` itself when it has none); a missing text raises |
| Gradescope.ReadTime | utils.py:139-140 | a missing `datetime` attribute raises `TypeError`, a malformed one `ValueError`, a well-formed one gives its instant |
| Gradescope.ReadFormattedTime | utils.py:139 | a `time` element carrying a formatted timestamp is read back as that timestamp's instant |
| Gradescope.DueDateFromTimes | utils.py:136-141 | fewer than two `time` elements raise `IndexError`; otherwise the normal date comes from the second, and a late date exists exactly when there is a third, and comes from it |
| Gradescope.DueDateFromProgressDivReads | utils.py:136-141 | of the progress element's `time` children in document order, the one with one before it gives the normal date (or its fault), the one with two before it the late date; any other can be replaced without changing the outcome |
| Gradescope.DueDateIgnoresOtherTimes | utils.py:136-141 | the first `time` element and any after the third play no part in the due date |
| Calendar.LastFetched | utils.py:44-52 | the listing stops at the first page without a `nextPageToken` |
| Calendar.EnumeratedMembers | utils.py:44-52 | an item is listed exactly when it is on a page up to and including the first last page |
| Calendar.EnumeratedIgnoresLaterPages | utils.py:50-52 | pages after the first one without a next-page token are never read |
| Calendar.EnumerateCalendarEvents | utils.py:44-52 | the paging loop yields exactly the items of the fetched pages, in order |
| Calendar.IsGradescopeCalendar | utils.py:78-81 | a calendar is the script's exactly when it is owned, not deleted and its description contains the marker |
| Calendar.NoDescriptionNotGradescope | utils.py:81 | a calendar without a description is never the script's |
| Calendar.FirstGradescopeId | utils.py:92-103 | `None` exactly when no listed calendar qualifies, else the id of the first one that does |
| Calendar.FirstGradescopeIdAppend | utils.py:92-103 | calendars before the first qualifying one do not change the result |
| Calendar.FindGradescopeCalendarId | utils.py:92-103 | the paging search with early return finds exactly the first qualifying calendar's id over the fetched pages |
| Calendar.ScanPage | utils.py:96-98 | the scan of one page returns an id only when it is the first qualifying id of the whole listing, and returns nothing only when no qualifying calendar is on the pages up to this one |
| Calendar.FoundOnPage | utils.py:96-98 | a qualifying entry with none before it, on a fetched page, is the one the search returns |
| Events.MatchTest | utils.py:111 | an event matches exactly when its title is the assignment name and its start is the normal due date; a missing title raises, a missing start raises once the title matched |
| Events.FirstMatchSpec | utils.py:109-114 | the first matching event in listing order, `None` when every event fails the test, or the fault of the first event whose test raises before any match |
| Events.FirstMatchIgnoresLateAndCompletion | utils.py:111 | the late due date and the completion state play no part in matching |
| Events.GetAssignmentInCalendar | utils.py:109-114 | the loop with early return computes `FirstMatch` |
| Events.ColorFor | utils.py:127 | the "Completed" colour for a completed assignment, the course's colour otherwise; a missing key raises `KeyError` naming it |
| Events.AssignmentEvent | utils.py:116-128 | the event is titled with the assignment name, starts and ends at the normal due date, links to the course and takes `ColorFor`'s colour, or raises its `KeyError` |
| Events.Batch.constructor | gradescope-calendar.py:96 | a new batch holds no requests |
| Events.Batch.Add | utils.py:129 | a request is queued after all earlier ones |
| Events.CreateAssignmentEvent | utils.py:116-129 | exactly one insert of `AssignmentEvent`'s body is queued, or nothing is queued and its fault is returned |
| Scrape.CourseName | gradescope-calendar.py:34 | the stripped `h3` text, the placeholder without an `h3`; an `h3` without text raises |
| Scrape.CourseFromAnchor | gradescope-calendar.py:33-36 | a course is the name and the `href`; a missing `href` raises `KeyError` |
| Scrape.ScrapeCourses | gradescope-calendar.py:32-38 | a successful scrape has one course per anchor |
| Scrape.ScrapeCoursesSpec | gradescope-calendar.py:32-38 | the course list succeeds exactly when every anchor does, and holds each anchor's course at the anchor's position; otherwise it raises the fault of the first anchor that raises |
| Scrape.IsSubmitted | gradescope-calendar.py:46 | the label is read at `row[1][1]` (raising `IndexError` when absent) and completed means exactly the text `Submitted` |
| Scrape.ParseRowSpec | gradescope-calendar.py:43-49 | a fault of the guard's indexing is raised; a row whose cell fails the length guard yields nothing; an accepted row raises the fault of its name, else `IndexError` for a missing `row[2][0][2]`, else the fault of its due dates, else that of its label; otherwise it yields exactly the assignment of its name, the due dates of `row[2][0][2]` and its submission state |
| Scrape.GuardAdmitsTwoChildCell | gradescope-calendar.py:45-49 | the guard `len > 1` admits a two-child cell whose element at index 2 does not exist, so such a row raises `IndexError` |
| Scrape.ParseRows | gradescope-calendar.py:41-50 | a course yields at most one assignment per row |
| Scrape.ParseRowsSpec | gradescope-calendar.py:41-50 | the rows parse exactly when each row does; every assignment comes from a row and every row's assignment is kept |
| Scrape.ParseRowsAppend | gradescope-calendar.py:41-50 | rows read as two runs raise the first run's fault, else the second run's, else give the first run's assignments followed by the second's, keeping row order and repeats |
| Scrape.SkippedRowsContributeNothing | gradescope-calendar.py:49 | a row rejected by the guard changes nothing, whatever else it holds |
| Scrape.ByCourseOk | gradescope-calendar.py:41-52 | the per-course dict is built exactly when every course's rows parse |
| Scrape.ByCourseKeys | gradescope-calendar.py:41-52 | its keys are exactly the course names |
| Scrape.ByCourseLastWins | gradescope-calendar.py:41-52 | a name shared by several courses maps to the assignments parsed for the last of them |
| Scrape.KeepIf | gradescope-calendar.py:56 | the filtered list keeps exactly the elements the condition accepts, and all of them when it accepts every one |
| Scrape.PostFilter | gradescope-calendar.py:54-59 | the post-filter keeps every course and, every due date being truthy, every assignment in order |
| Colors.ValidationRunsWhen | gradescope-calendar.py:71 | the colour check runs exactly when there are no settings, or they are empty, or `validate_colors` is present and falsy |
| Colors.CourseColorOk | gradescope-calendar.py:77 | a course is valid exactly when its key holds a string of the palette; a list or object value raises |
| Colors.AllCourseColorsOkSpec | gradescope-calendar.py:77 | the `all(...)` holds exactly when every course is valid |
| Colors.AllCourseColorsOkRaises | gradescope-calendar.py:77 | the `all(...)` raises only on an unhashable course value |
| Colors.InvalidCoursesOk | gradescope-calendar.py:80 | the invalid list is built exactly when no course value is unhashable |
| Colors.InvalidCoursesMembers | gradescope-calendar.py:80 | a name is listed exactly when a course of that name is not valid |
| Colors.InvalidCoursesAppend | gradescope-calendar.py:80 | the list keeps course order: the list for two runs of courses is the concatenation of theirs |
| Colors.CollectInvalidSettings | gradescope-calendar.py:80-82 | the comprehension then `append` computes the invalid course names followed by "Completed" when its colour is unset |
| Colors.EmptyCourseColors | gradescope-calendar.py:86 | the template's keys are the course names, each mapped to the empty string |
| Colors.Template | gradescope-calendar.py:85-88 | the template has the course names and "Completed" as keys, all mapped to the empty string |
| Colors.CheckColors | gradescope-calendar.py:71-89 | when the check is switched off the run proceeds; the run proceeds only with non-empty settings |
| Colors.ValidateColorSettings | gradescope-calendar.py:71-89 | the colour check, using `CollectInvalidSettings`, decides as `CheckColors` does |
| Colors.AcceptedIff | gradescope-calendar.py:77 | when the colour check runs on settings, it accepts exactly when every course has a palette colour and "Completed" is set |
| Colors.RejectedListsSomething | gradescope-calendar.py:77-83 | rejected settings are reported with the invalid list, which is never empty |
| Colors.TemplateOnlyWithoutSettings | gradescope-calendar.py:79-88 | the template is written exactly when there are no (or empty) settings, and then it is `Template` |
| Colors.AcceptedSettingsHaveColors | gradescope-calendar.py:77 | accepted settings hold a key for every course and for "Completed" |
| Sync.WorkAppend | gradescope-calendar.py:98-99 | the loops over two consecutive runs of courses visit the first run's pairs, then the second's |
| Sync.WorkMembers | gradescope-calendar.py:98-99 | the loops visit exactly the pairs of a course and an assignment of its name's entry |
| Sync.Step | gradescope-calendar.py:100-106 | one pass queues at most one request |
| Sync.StepInsert | gradescope-calendar.py:102-104 | an insert is queued only for an assignment with no event and a due date after now, with `AssignmentEvent`'s body |
| Sync.StepPatch | gradescope-calendar.py:105-106 | a patch is queued only for a completed assignment whose matched event is not cancelled, setting that event's colour to the "Completed" one |
| Sync.StepLeaves | gradescope-calendar.py:100-106 | nothing is queued exactly for a matched assignment that is not completed or whose event is cancelled, or an unmatched one already due |
| Sync.StepFault | gradescope-calendar.py:100-106 | a pass raises only from the event search, from a missing colour key while building the event of an unmatched assignment due in the future, or from a missing "Completed" key while recolouring a matched, completed, non-cancelled event |
| Sync.Plan | gradescope-calendar.py:98-106 | the loops queue at most one request per assignment |
| Sync.PlanStopsAtFault | gradescope-calendar.py:98-106 | after a fault nothing more is queued |
| Sync.PlanCompletes | gradescope-calendar.py:98-106 | the loops finish exactly when no pass raises |
| Sync.PlanFaultFromStep | gradescope-calendar.py:98-106 | the fault that stops the loops is some pass's fault |
| Sync.PlanRequestsFromSteps | gradescope-calendar.py:98-106 | every queued request is the whole output of some pass |
| Sync.RepeatedAssignmentCreatedTwice | gradescope-calendar.py:93-104 | with the listing taken once, an assignment visited twice without an event gets two inserts |
| Sync.CreatedEventFoundNextRun | gradescope-calendar.py:100-104 | a created event is matched on the next run wherever it is listed, so it is not created again; it is only re-coloured if completed |
| Sync.FirstMatchRecolored | utils.py:109-114 | a colour patch does not change which event an assignment matches |
| Sync.StepAfterPatch | gradescope-calendar.py:105-106 | after a colour patch the next run decides the same, so the patch is re-sent every run |
| Sync.NoColorFaultAfterValidation | gradescope-calendar.py:71-106 | with settings the colour check accepted, the loops raise only on an event without a title or a start |
| Sync.ReconcileOne | gradescope-calendar.py:100-106 | the loop body queues exactly what `Step` says, or raises its fault with nothing queued |
| Sync.ReconcileNext | gradescope-calendar.py:99-106 | one more pass extends the run as `Plan` does |
| Sync.ReconcileCourse | gradescope-calendar.py:99-106 | the inner loop over one course's assignments extends the run as `Plan` does |
| Sync.Reconcile | gradescope-calendar.py:98-106 | the nested loops leave on the batch exactly `Plan`'s requests and return its fault |
| Script.ScrapedCovers | gradescope-calendar.py:41-57 | every scraped course has an entry in the filtered dict |
| Script.Run | gradescope-calendar.py:32-108 | the script, step by step, ends as `RunSpec` says |
| Script.Synchronise | gradescope-calendar.py:71-108 | the part of the script after scraping, step by step, ends as `SyncSpec` says |
| Script.RunScrapes | gradescope-calendar.py:32-57 | a run whose scraping raises ends with that exception, having created no calendar; otherwise it continues as `SyncSpec` on the filtered dict, which holds every course |
| Script.RunRequests | gradescope-calendar.py:98-108 | once the pages are scraped, every request sent goes to the chosen calendar; inserts start and end at a due date after now; patches carry the "Completed" colour |
| Script.RunCalendar | gradescope-calendar.py:91 | once the pages are scraped, a calendar is created exactly when none is found or the found id is empty; otherwise the found one is used |
| Script.RunCrashCalendar | gradescope-calendar.py:91-108 | a run that crashes after scraping has created a calendar exactly when it got past the colour check and no usable calendar of the script was found |
| Script.RunWithoutSettings | gradescope-calendar.py:84-89 | without (or with empty) settings, a run that got past scraping writes the template and stops |
| Script.RunReportsSomething | gradescope-calendar.py:78-83 | a run that got past scraping and stopped on invalid settings names at least one of them |
| Script.RunValidatedDoesNotCrash | gradescope-calendar.py:71-108 | with the colour check on, no list or object values and well-formed events, a run that got past scraping never crashes |

## Left out

- `login_with_google` (utils.py:17-42): OAuth credential handling and the token file are I/O with Google's libraries.
- `get_data_from_gradescope` (utils.py:61-69): the HTTP request, the exit on a non-200 status, HTML parsing and the XPath queries are outside the model. The elements a query returns are inputs (`anchors`, `tables`).
- `create_gradescope_calendar` (utils.py:83-90): the API call and the local time zone lookup; the id it returns is an input, used only when no calendar is found.
- Reading `gradescope_secrets.json` and `color_settings.json`, fetching the colour palette, and writing `colors.json` and the template file: the decoded settings and the palette keys are inputs; the template is returned in the outcome.
- `print` output and `exit(1)`: the messages are not modelled; how a run ends is the `Outcome`.
- `event_update_batch.execute()` and API errors: the requests queued are the run's result; a failing batch call is not modelled.
- Endless listings: the paging loops (`while True` at utils.py:46 and utils.py:94) stop only when the service returns a page without a next-page token. The model takes as given that the listing has such a page (`Calendar.Finite`); a service that never ends the listing is not modelled.
- Created calendars: a crash after a calendar was created leaves that calendar in place. `Crashed` records whether one was created, but the model does not track the calendar's contents.
- Timestamp.Parse: accepts only the canonical spelling of the layout (two-digit fields, a four-digit year, single spaces and a `+HHMM`/`-HHMM` offset), whereas `strptime` also accepts single-digit fields, runs of whitespace where the layout has a space, and other offset spellings.
- Timestamp.ToInstant: seconds only; fractional seconds do not occur in the layout.
- Events.Event: a listed event's start is taken as already converted to an instant (`None` when there is no `dateTime`). The `ValueError` of `datetime.fromisoformat` on a string it rejects, and the `KeyError('start')` of an event with no `start` object, are not modelled or told apart from a missing `dateTime`.
- Colors.ColorSettings: `json.load` may return a list, string or number; such a value fails at `.get` with `AttributeError` (gradescope-calendar.py:71), which the model does not cover: it takes the decoded settings to be a JSON object.
- Json.Value: numbers are integers, and lists and objects carry only their size, which is all the colour check uses (truthiness and hashability).
- Html.Element: the children of an element are its child elements; lxml also counts comments and processing instructions as children, which the model does not.
- Sync.Listed: an inserted event is assumed to be listed on the next run with its title, start, status "confirmed" and colour; `CreatedEventFoundNextRun` holds wherever the listing places it.
- The datetime `now` is one input instant for the whole run, whereas the script reads the clock again for every assignment (gradescope-calendar.py:103). A due time that falls between two of those readings may be decided differently by the script than by the model. Time zones matter only through the offsets of the parsed timestamps.

=== FILE: base.dfy ===
/** Shared vocabulary: optional values, the exceptions the script can raise,
    and the result of a computation that may raise one of them. */
module Base {

  datatype Option<T> = None | Some(value: T) {
    /** Python's `d.get(key, default)` once the lookup has been done. */
    function GetOr(default: T): T {
      if Some? then value else default
    }
  }

  /** The exceptions the script can raise while parsing or reconciling.
      Every one of them ends the run before the batch is executed. */
  datatype Fault =
    | IndexOutOfRange          // IndexError from `element[i]` or `times[i]`
    | MissingKey(key: string)  // KeyError from `d[key]` or `attrib[key]`
    | LengthOfNone             // TypeError from `len(None)`
    | StripOfNone              // AttributeError from `None.strip()`
    | TimestampNotAString      // TypeError from `strptime(None, ...)`
    | MalformedTimestamp       // ValueError from `strptime`
    | Unhashable               // TypeError from `[...] in colors` or `{...} in colors`

  datatype Result<T> = Ok(value: T) | Err(fault: Fault)

  /** A point in time: seconds since 1970-01-01 00:00:00 UTC. Timezone-aware
      Python datetimes compare by the instant they denote. */
  type Instant = int

  /** A list comprehension whose element expression may raise, given the
      outcome for each element: the values in order, or the fault of the
      first element that raises. */
  function Collect<T>(rs: seq<Result<T>>): (r: Result<seq<T>>)
    ensures r.Ok? ==> |r.value| == |rs|
  {
    if rs == [] then Ok([])
    else
      match rs[0]
      case Err(f) => Err(f)
      case Ok(v) =>
        match Collect(rs[1..])
        case Err(f) => Err(f)
        case Ok(vs) => Ok([v] + vs)
  }

  /** The comprehension succeeds exactly when every element does, and then
      holds each element's value at its position; otherwise it raises the
      fault of an element all of whose predecessors succeed. */
  lemma {:induction false} CollectSpec<T>(rs: seq<Result<T>>)
    ensures Collect(rs).Ok? <==> forall k :: 0 <= k < |rs| ==> rs[k].Ok?
    ensures Collect(rs).Ok? ==> forall k :: 0 <= k < |rs| ==> Ok(Collect(rs).value[k]) == rs[k]
    ensures Collect(rs).Err? ==>
      exists k :: 0 <= k < |rs| && rs[k] == Err(Collect(rs).fault) && forall j :: 0 <= j < k ==> rs[j].Ok?
  {
    if rs != [] {
      var rest := rs[1..];
      CollectSpec(rest);
      assert forall k :: 1 <= k < |rs| ==> rs[k] == rest[k - 1];
      var r := Collect(rs);
      if r.Ok? {
        assert r.value == [r.value[0]] + Collect(rest).value;
      } else if rs[0].Ok? {
        var k :| 0 <= k < |rest| && rest[k] == Err(r.fault) && forall j :: 0 <= j < k ==> rest[j].Ok?;
        assert rs[k + 1] == Err(r.fault);
        forall j | 0 <= j < k + 1 ensures rs[j].Ok? {
          if j > 0 {
            assert rs[j] == rest[j - 1];
          }
        }
      }
    }
  }

  /** A comprehension over two runs of elements: the first run's fault if it
      raises, else the second run's fault if that raises, else the values of
      the first run followed by those of the second. */
  lemma {:induction false} CollectAppend<T>(a: seq<Result<T>>, b: seq<Result<T>>)
    ensures Collect(a).Err? ==> Collect(a + b) == Collect(a)
    ensures Collect(a).Ok? && Collect(b).Err? ==> Collect(a + b) == Collect(b)
    ensures Collect(a).Ok? && Collect(b).Ok? ==> Collect(a + b) == Ok(Collect(a).value + Collect(b).value)
    decreases |a|
  {
    if a == [] {
      assert a + b == b;
      assert Collect(a) == Ok([]);
      if Collect(b).Ok? {
        assert [] + Collect(b).value == Collect(b).value;
      }
    } else {
      assert (a + b)[0] == a[0];
      assert (a + b)[1..] == a[1..] + b;
      CollectAppend(a[1..], b);
      if Collect(a).Ok? && Collect(b).Ok? {
        var va, vb := Collect(a).value, Collect(b).value;
        var v, rest := va[0], Collect(a[1..]).value;
        assert va == [v] + rest;
        assert Collect(a + b) == Ok([v] + (rest + vb));
        assert [v] + (rest + vb) == va + vb;
      }
    }
  }

  /** A comprehension with a condition over optional values: the present
      values, in order. */
  function Present<T>(os: seq<Option<T>>): (r: seq<T>)
    ensures |r| <= |os|
  {
    if os == [] then []
    else (if os[0].Some? then [os[0].value] else []) + Present(os[1..])
  }

  /** A value is kept exactly when it is present at some position. */
  lemma {:induction false} PresentMembers<T>(os: seq<Option<T>>, x: T)
    ensures x in Present(os) <==> exists k :: 0 <= k < |os| && os[k] == Some(x)
  {
    if os != [] {
      var rest := os[1..];
      PresentMembers(rest, x);
      assert forall k :: 1 <= k < |os| ==> os[k] == rest[k - 1];
      if x in Present(rest) {
        var k :| 0 <= k < |rest| && rest[k] == Some(x);
        assert os[k + 1] == Some(x);
      }
    }
  }

  /** Keeping the present values of two runs keeps those of the first run
      followed by those of the second: order and multiplicity are kept. */
  lemma {:induction false} PresentAppend<T>(a: seq<Option<T>>, b: seq<Option<T>>)
    ensures Present(a + b) == Present(a) + Present(b)
    decreases |a|
  {
    if a == [] {
      assert a + b == b;
    } else {
      assert (a + b)[0] == a[0];
      assert (a + b)[1..] == a[1..] + b;
      PresentAppend(a[1..], b);
      var head := if a[0].Some? then [a[0].value] else [];
      assert head + (Present(a[1..]) + Present(b)) == (head + Present(a[1..])) + Present(b);
    }
  }

  /** A comprehension with a condition whose element expression may raise:
      the present values in order, or the first fault. */
  function CollectPresent<T>(rs: seq<Result<Option<T>>>): (r: Result<seq<T>>)
    ensures r.Ok? ==> |r.value| <= |rs|
  {
    match Collect(rs)
    case Err(f) => Err(f)
    case Ok(found) => Ok(Present(found))
  }

  /** An element that yields nothing and raises nothing can be dropped. */
  lemma CollectPresentSkipsNone<T>(rs: seq<Result<Option<T>>>)
    ensures CollectPresent([Ok(None)] + rs) == CollectPresent(rs)
  {
    var all := [Ok(None)] + rs;
    assert all[0] == Ok(None) && all[1..] == rs;
    var c := Collect(all);
    if c.Ok? {
      var rest := Collect(rs).value;
      assert c.value == [None] + rest;
      assert c.value[1..] == rest;
      assert Present(c.value) == [] + Present(rest) == Present(rest);
    }
  }

  /** The filtered comprehension over two runs of elements: the first run's
      fault, else the second run's fault, else the kept values of the first
      run followed by those of the second. */
  lemma CollectPresentAppend<T>(a: seq<Result<Option<T>>>, b: seq<Result<Option<T>>>)
    ensures CollectPresent(a).Err? ==> CollectPresent(a + b) == CollectPresent(a)
    ensures CollectPresent(a).Ok? && CollectPresent(b).Err? ==> CollectPresent(a + b) == CollectPresent(b)
    ensures CollectPresent(a).Ok? && CollectPresent(b).Ok? ==>
              CollectPresent(a + b) == Ok(CollectPresent(a).value + CollectPresent(b).value)
  {
    CollectAppend(a, b);
    if Collect(a).Ok? && Collect(b).Ok? {
      PresentAppend(Collect(a).value, Collect(b).value);
    }
  }
}

=== FILE: calendar.dfy ===
/** The calendar region of utils.py: draining a paginated listing, the
    predicate that recognises the script's own calendar, and the search for
    it over the paginated calendar list. */
module Calendar {
  import opened Base
  import opened Text

  /** The marker the script writes into the description of its calendar. */
  const CalendarDescription := "<USE AS GRADESCOPE CALENDAR>"

  /** One response of a paginated `list` call: its items and the token that
      requests the next page, if any. */
  datatype Page<T> = Page(items: seq<T>, nextPageToken: Option<string>)

  /** `if not page_token: break` — a missing or empty token ends the listing. */
  predicate IsLastPage<T>(p: Page<T>) {
    p.nextPageToken.None? || p.nextPageToken.value == ""
  }

  /** The pages the store returns when the token of each page is passed to
      fetch the next one; the listing ends at some page. */
  predicate Finite<T>(pages: seq<Page<T>>) {
    exists i :: 0 <= i < |pages| && IsLastPage(pages[i])
  }

  /** The index of the page after which the loop stops. */
  function LastFetched<T>(pages: seq<Page<T>>): (n: nat)
    requires Finite(pages)
    ensures n < |pages| && IsLastPage(pages[n])
    ensures forall j :: 0 <= j < n ==> !IsLastPage(pages[j])
  {
    if IsLastPage(pages[0]) then 0
    else
      assert Finite(pages[1..]) by {
        var i :| 0 <= i < |pages| && IsLastPage(pages[i]);
        assert pages[1..][i - 1] == pages[i];
      }
      1 + LastFetched(pages[1..])
  }

  /** The items of the given pages, page after page. */
  function Concat<T>(pages: seq<Page<T>>): seq<T> {
    if pages == [] then [] else Concat(pages[..|pages| - 1]) + pages[|pages| - 1].items
  }

  lemma {:induction false} ConcatAppend<T>(a: seq<Page<T>>, b: seq<Page<T>>)
    ensures Concat(a + b) == Concat(a) + Concat(b)
    decreases |b|
  {
    if b == [] {
      assert a + b == a;
    } else {
      var c := b[..|b| - 1];
      assert (a + b)[..|a + b| - 1] == a + c;
      ConcatAppend(a, c);
    }
  }

  lemma ConcatStep<T>(pages: seq<Page<T>>, i: nat)
    requires i < |pages|
    ensures Concat(pages[..i + 1]) == Concat(pages[..i]) + pages[i].items
  {
    assert pages[..i + 1][..i] == pages[..i];
  }

  /** Everything the listing yields: the items of every page up to and
      including the first last page. */
  function Enumerated<T>(pages: seq<Page<T>>): seq<T>
    requires Finite(pages)
  {
    Concat(pages[..LastFetched(pages) + 1])
  }

  /** An item is listed exactly when it is on a page that is fetched. */
  lemma {:induction false} EnumeratedMembers<T>(pages: seq<Page<T>>, x: T)
    requires Finite(pages)
    ensures x in Enumerated(pages) <==>
            exists j :: 0 <= j <= LastFetched(pages) && x in pages[j].items
  {
    var n := LastFetched(pages);
    ConcatMembers(pages[..n + 1], x);
    if x in Enumerated(pages) {
      var j :| 0 <= j < n + 1 && x in pages[..n + 1][j].items;
      assert x in pages[j].items;
    }
    if exists j :: 0 <= j <= n && x in pages[j].items {
      var j :| 0 <= j <= n && x in pages[j].items;
      assert x in pages[..n + 1][j].items;
    }
  }

  lemma {:induction false} ConcatMembers<T>(pages: seq<Page<T>>, x: T)
    ensures x in Concat(pages) <==> exists j :: 0 <= j < |pages| && x in pages[j].items
    decreases |pages|
  {
    if pages != [] {
      var init := pages[..|pages| - 1];
      ConcatMembers(init, x);
      if exists j :: 0 <= j < |init| && x in init[j].items {
        var j :| 0 <= j < |init| && x in init[j].items;
        assert x in pages[j].items;
      }
      if exists j :: 0 <= j < |pages| && x in pages[j].items {
        var j :| 0 <= j < |pages| && x in pages[j].items;
        if j < |init| {
          assert x in init[j].items;
        }
      }
    }
  }

  /** The pages after the last one are never fetched. */
  lemma {:induction false} EnumeratedIgnoresLaterPages<T>(pages: seq<Page<T>>, more: seq<Page<T>>)
    requires Finite(pages)
    ensures Finite(pages + more)
    ensures LastFetched(pages + more) == LastFetched(pages)
    ensures Enumerated(pages + more) == Enumerated(pages)
  {
    var n := LastFetched(pages);
    assert (pages + more)[n] == pages[n];
    LastFetchedPrefix(pages, more);
    assert (pages + more)[..n + 1] == pages[..n + 1];
  }

  lemma {:induction false} LastFetchedPrefix<T>(pages: seq<Page<T>>, more: seq<Page<T>>)
    requires Finite(pages)
    ensures Finite(pages + more) && LastFetched(pages + more) == LastFetched(pages)
    decreases |pages|
  {
    assert (pages + more)[LastFetched(pages)] == pages[LastFetched(pages)];
    if !IsLastPage(pages[0]) {
      assert (pages + more)[1..] == pages[1..] + more;
      LastFetchedPrefix(pages[1..], more);
    }
  }

  /** `enumerate_calendar_events`: requests pages until one carries no next
      token and yields every item of every page fetched, in order. */
  method EnumerateCalendarEvents<T>(pages: seq<Page<T>>) returns (items: seq<T>)
    requires Finite(pages)
    ensures items == Enumerated(pages)
  {
    var n := LastFetched(pages);
    items := [];
    var i := 0;
    while true
      invariant 0 <= i <= n
      invariant items == Concat(pages[..i])
      decreases n - i
    {
      var page := pages[i];
      var j := 0;
      while j < |page.items|
        invariant 0 <= j <= |page.items|
        invariant items == Concat(pages[..i]) + page.items[..j]
      {
        items := items + [page.items[j]];
        j := j + 1;
      }
      assert page.items[..j] == page.items;
      ConcatStep(pages, i);
      if IsLastPage(page) {
        break;
      }
      i := i + 1;
    }
  }

  /** One entry of the user's calendar list. `accessRole` is always present
      in the store's answer; `deleted` and `description` may be absent. */
  datatype CalendarEntry = CalendarEntry(id: string, accessRole: string,
                                         deleted: Option<bool>, description: Option<string>)

  /** `is_gradescope_calendar`: an owned, not deleted calendar whose
      description (empty when absent) contains the marker. */
  function IsGradescopeCalendar(c: CalendarEntry): (r: bool)
    ensures r <==> && c.accessRole == "owner"
                   && c.deleted != Some(true)
                   && exists i :: OccursAt(c.description.GetOr(""), CalendarDescription, i)
  {
    ContainsIff(c.description.GetOr(""), CalendarDescription);
    if c.accessRole != "owner" || c.deleted.GetOr(false) then false
    else Contains(c.description.GetOr(""), CalendarDescription)
  }

  /** A calendar without a description is never taken for the script's own. */
  lemma NoDescriptionNotGradescope(c: CalendarEntry)
    requires c.description.None?
    ensures !IsGradescopeCalendar(c)
  {
  }

  /** The id of the first entry, in listing order, that is the script's calendar. */
  function FirstGradescopeId(entries: seq<CalendarEntry>): (r: Option<string>)
    ensures r.None? <==> forall k :: 0 <= k < |entries| ==> !IsGradescopeCalendar(entries[k])
    ensures r.Some? ==> exists k :: && 0 <= k < |entries| && IsGradescopeCalendar(entries[k])
                                    && entries[k].id == r.value
                                    && forall j :: 0 <= j < k ==> !IsGradescopeCalendar(entries[j])
  {
    if entries == [] then None
    else if IsGradescopeCalendar(entries[0]) then Some(entries[0].id)
    else
      var r := FirstGradescopeId(entries[1..]);
      assert forall k :: 1 <= k < |entries| ==> entries[k] == entries[1..][k - 1];
      r
  }

  lemma {:induction false} FirstGradescopeIdAppend(a: seq<CalendarEntry>, b: seq<CalendarEntry>)
    requires FirstGradescopeId(a).None?
    ensures FirstGradescopeId(a + b) == FirstGradescopeId(b)
    decreases |a|
  {
    if a == [] {
      assert a + b == b;
    } else {
      assert (a + b)[1..] == a[1..] + b;
      FirstGradescopeIdAppend(a[1..], b);
    }
  }

  /** `find_gradescope_calendar_id`: scans the calendar list page by page and
      returns the id of the first entry that is the script's calendar, or
      `None` when no fetched entry is. */
  method FindGradescopeCalendarId(pages: seq<Page<CalendarEntry>>) returns (id: Option<string>)
    requires Finite(pages)
    ensures id == FirstGradescopeId(Enumerated(pages))
  {
    var n := LastFetched(pages);
    var i := 0;
    while true
      invariant 0 <= i <= n
      invariant FirstGradescopeId(Concat(pages[..i])).None?
      decreases n - i
    {
      id := ScanPage(pages, i);
      if id.Some? {
        return;
      }
      if IsLastPage(pages[i]) {
        break;
      }
      i := i + 1;
    }
    assert pages[..i + 1] == pages[..n + 1];
    id := None;
  }

  /** The inner loop over the entries of page `i`, reached with no calendar
      of the script on the pages before it: the first such entry of the page
      is the first of the whole listing. */
  method ScanPage(pages: seq<Page<CalendarEntry>>, i: nat) returns (id: Option<string>)
    requires Finite(pages) && i <= LastFetched(pages)
    requires FirstGradescopeId(Concat(pages[..i])).None?
    ensures id.Some? ==> id == FirstGradescopeId(Enumerated(pages))
    ensures id.None? ==> FirstGradescopeId(Concat(pages[..i + 1])).None?
  {
    var items := pages[i].items;
    ghost var before := Concat(pages[..i]);
    var j := 0;
    while j < |items|
      invariant 0 <= j <= |items|
      invariant FirstGradescopeId(before + items[..j]).None?
    {
      if IsGradescopeCalendar(items[j]) {
        FoundOnPage(pages, i, j);
        return Some(items[j].id);
      }
      assert items[..j + 1] == items[..j] + [items[j]];
      assert before + items[..j + 1] == (before + items[..j]) + [items[j]];
      FirstGradescopeIdAppend(before + items[..j], [items[j]]);
      j := j + 1;
    }
    assert items[..j] == items;
    ConcatStep(pages, i);
    id := None;
  }

  /** The items of a run of pages split around page `i`. */
  lemma ConcatSplit<T>(pages: seq<Page<T>>, i: nat)
    requires i < |pages|
    ensures Concat(pages) == Concat(pages[..i]) + pages[i].items + Concat(pages[i + 1..])
  {
    assert pages == pages[..i + 1] + pages[i + 1..];
    ConcatAppend(pages[..i + 1], pages[i + 1..]);
    ConcatStep(pages, i);
  }

  /** The listing splits around page `i` of the fetched pages. */
  lemma EnumeratedSplit<T>(pages: seq<Page<T>>, i: nat)
    requires Finite(pages) && i <= LastFetched(pages)
    ensures Enumerated(pages) == Concat(pages[..i]) + pages[i].items
                                 + Concat(pages[i + 1..LastFetched(pages) + 1])
  {
    var fetched := pages[..LastFetched(pages) + 1];
    ConcatSplit(fetched, i);
    assert fetched[..i] == pages[..i] && fetched[i] == pages[i];
    assert fetched[i + 1..] == pages[i + 1..LastFetched(pages) + 1];
  }

  lemma FoundOnPage(pages: seq<Page<CalendarEntry>>, i: nat, j: nat)
    requires Finite(pages) && i <= LastFetched(pages) && j < |pages[i].items|
    requires FirstGradescopeId(Concat(pages[..i]) + pages[i].items[..j]).None?
    requires IsGradescopeCalendar(pages[i].items[j])
    ensures FirstGradescopeId(Enumerated(pages)) == Some(pages[i].items[j].id)
  {
    var n := LastFetched(pages);
    var before := Concat(pages[..i]);
    var items := pages[i].items;
    var rest := Concat(pages[i + 1..n + 1]);
    var tail := items[j..] + rest;
    var all := Enumerated(pages);
    assert all == before + items + rest by {
      EnumeratedSplit(pages, i);
    }
    assert all == (before + items[..j]) + tail by {
      Regroup(before, items, rest, j);
    }
    FirstGradescopeIdAppend(before + items[..j], tail);
    assert tail[0] == items[j];
    FirstGradescopeIdHead(tail);
  }

  lemma Regroup<T>(before: seq<T>, items: seq<T>, rest: seq<T>, j: nat)
    requires j <= |items|
    ensures before + items + rest == (before + items[..j]) + (items[j..] + rest)
  {
    assert items == items[..j] + items[j..];
  }

  lemma FirstGradescopeIdHead(entries: seq<CalendarEntry>)
    requires |entries| > 0 && IsGradescopeCalendar(entries[0])
    ensures FirstGradescopeId(entries) == Some(entries[0].id)
  {
  }
}

=== FILE: colors.dfy ===
/** The colour-settings check of gradescope-calendar.py, run before anything
    is written to the calendar. Reading and writing the JSON files is not
    modelled: the decoded settings file (if any) and the keys of the
    calendar's event colour palette are inputs, and the outcome says which
    message the script prints or which template it writes before exiting. */
module Colors {
  import opened Base
  import opened Json
  import opened Scrape

  /** The decoded `color_settings.json`: course names (and the reserved keys
      "Completed" and "validate_colors") to JSON values. */
  type ColorSettings = map<string, Value>

  /** `color_settings.get(key, default)`. */
  function Get(cs: ColorSettings, key: string, default: Value): Value {
    if key in cs then cs[key] else default
  }

  /** `color_settings` is truthy: a file was read and it is a non-empty object. */
  predicate HasSettings(settings: Option<ColorSettings>) {
    settings.Some? && settings.value != map[]
  }

  /** The guard of the colour check,
      `not color_settings or not color_settings.get("validate_colors", True)`. */
  predicate ValidationRuns(settings: Option<ColorSettings>) {
    !HasSettings(settings) || !IsTruthy(Get(settings.value, "validate_colors", Bool(true)))
  }

  /** The colour check runs only without settings or when "validate_colors" is
      present and falsy; leaving the key out skips it. */
  lemma ValidationRunsWhen(settings: Option<ColorSettings>)
    ensures ValidationRuns(settings) <==>
            || settings.None? || settings.value == map[]
            || ("validate_colors" in settings.value && !IsTruthy(settings.value["validate_colors"]))
  {
  }

  /** `course_name in color_settings and color_settings[course_name] in colors`. */
  function CourseColorOk(cs: ColorSettings, name: string, palette: set<string>): (r: Result<bool>)
    ensures r == Ok(true) <==> name in cs && cs[name].Str? && cs[name].s in palette
    ensures r.Err? <==> name in cs && (cs[name].Array? || cs[name].Object?)
  {
    if name !in cs then Ok(false) else InKeys(cs[name], palette)
  }

  /** `all(... for course_name, _ in gradescope_courses)`: stops at the first
      course whose colour is not valid, so a later unhashable value is never
      looked at. */
  function AllCourseColorsOk(courses: seq<Course>, cs: ColorSettings, palette: set<string>): Result<bool> {
    if courses == [] then Ok(true)
    else match CourseColorOk(cs, courses[0].name, palette)
      case Err(f) => Err(f)
      case Ok(false) => Ok(false)
      case Ok(true) => AllCourseColorsOk(courses[1..], cs, palette)
  }

  lemma {:induction false} AllCourseColorsOkSpec(courses: seq<Course>, cs: ColorSettings, palette: set<string>)
    ensures AllCourseColorsOk(courses, cs, palette) == Ok(true) <==>
            forall k :: 0 <= k < |courses| ==> CourseColorOk(cs, courses[k].name, palette) == Ok(true)
  {
    if courses != [] {
      AllCourseColorsOkSpec(courses[1..], cs, palette);
      assert forall k :: 1 <= k < |courses| ==> courses[k] == courses[1..][k - 1];
    }
  }

  /** The short-circuit check raises only on an unhashable value. */
  lemma {:induction false} AllCourseColorsOkRaises(courses: seq<Course>, cs: ColorSettings, palette: set<string>)
    requires AllCourseColorsOk(courses, cs, palette).Err?
    ensures exists k :: 0 <= k < |courses| && CourseColorOk(cs, courses[k].name, palette).Err?
  {
    if CourseColorOk(cs, courses[0].name, palette).Ok? {
      AllCourseColorsOkRaises(courses[1..], cs, palette);
      var k :| 0 <= k < |courses[1..]| && CourseColorOk(cs, courses[1..][k].name, palette).Err?;
      assert courses[1..][k] == courses[k + 1];
    }
  }

  /** `color_settings.get("Completed", None)` is truthy. */
  predicate CompletedColorSet(cs: ColorSettings) {
    IsTruthy(Get(cs, "Completed", Null))
  }

  /** The comprehension that lists the courses whose colour is missing or
      invalid, in course order; an unhashable value raises. */
  function InvalidCourses(courses: seq<Course>, cs: ColorSettings, palette: set<string>): Result<seq<string>> {
    if courses == [] then Ok([])
    else
      var n := |courses| - 1;
      match InvalidCourses(courses[..n], cs, palette)
      case Err(f) => Err(f)
      case Ok(names) =>
        match CourseColorOk(cs, courses[n].name, palette)
        case Err(f) => Err(f)
        case Ok(ok) => Ok(if ok then names else names + [courses[n].name])
  }

  /** The list succeeds exactly when no course's value is unhashable. */
  lemma {:induction false} InvalidCoursesOk(courses: seq<Course>, cs: ColorSettings, palette: set<string>)
    ensures InvalidCourses(courses, cs, palette).Ok? <==>
            forall k :: 0 <= k < |courses| ==> CourseColorOk(cs, courses[k].name, palette).Ok?
  {
    if courses != [] {
      var n := |courses| - 1;
      InvalidCoursesOk(courses[..n], cs, palette);
      assert forall k :: 0 <= k < n ==> courses[..n][k] == courses[k];
    }
  }

  /** A name is listed exactly when some course of that name has a missing or
      invalid colour. */
  lemma {:induction false} InvalidCoursesMembers(courses: seq<Course>, cs: ColorSettings, palette: set<string>, name: string)
    requires InvalidCourses(courses, cs, palette).Ok?
    ensures name in InvalidCourses(courses, cs, palette).value <==>
            exists k :: 0 <= k < |courses| && courses[k].name == name
                        && CourseColorOk(cs, name, palette) == Ok(false)
  {
    if courses != [] {
      var n := |courses| - 1;
      InvalidCoursesMembers(courses[..n], cs, palette, name);
      assert forall k :: 0 <= k < n ==> courses[..n][k] == courses[k];
    }
  }

  /** The list keeps course order: the list for two consecutive runs of
      courses is the first run's list followed by the second's. */
  lemma {:induction false} InvalidCoursesAppend(a: seq<Course>, b: seq<Course>, cs: ColorSettings, palette: set<string>)
    requires InvalidCourses(a, cs, palette).Ok? && InvalidCourses(b, cs, palette).Ok?
    ensures InvalidCourses(a + b, cs, palette)
            == Ok(InvalidCourses(a, cs, palette).value + InvalidCourses(b, cs, palette).value)
    decreases |b|
  {
    if b == [] {
      assert a + b == a;
      assert InvalidCourses(a, cs, palette).value + [] == InvalidCourses(a, cs, palette).value;
    } else {
      var n := |b| - 1;
      var ab := a + b;
      assert ab[..|ab| - 1] == a + b[..n];
      assert ab[|ab| - 1] == b[n];
      assert InvalidCourses(b[..n], cs, palette).Ok?;
      InvalidCoursesAppend(a, b[..n], cs, palette);
      var x := InvalidCourses(a, cs, palette).value;
      var y := InvalidCourses(b[..n], cs, palette).value;
      assert InvalidCourses(ab[..|ab| - 1], cs, palette) == Ok(x + y);
      var ok := CourseColorOk(cs, b[n].name, palette);
      assert ok.Ok?;
      if !ok.value {
        assert (x + y) + [b[n].name] == x + (y + [b[n].name]);
        assert InvalidCourses(b, cs, palette) == Ok(y + [b[n].name]);
        assert InvalidCourses(ab, cs, palette) == Ok((x + y) + [b[n].name]);
      } else {
        assert InvalidCourses(b, cs, palette) == Ok(y);
        assert InvalidCourses(ab, cs, palette) == Ok(x + y);
      }
    }
  }

  /** Once a course's value raises, every longer list of courses raises the
      same way. */
  lemma {:induction false} InvalidCoursesErrPersists(a: seq<Course>, b: seq<Course>, cs: ColorSettings, palette: set<string>)
    requires InvalidCourses(a, cs, palette).Err?
    ensures InvalidCourses(a + b, cs, palette) == InvalidCourses(a, cs, palette)
    decreases |b|
  {
    if b == [] {
      assert a + b == a;
    } else {
      var n := |b| - 1;
      var ab := a + b;
      assert ab[..|ab| - 1] == a + b[..n];
      InvalidCoursesErrPersists(a, b[..n], cs, palette);
    }
  }

  /** `invalid_settings`: the invalid course names, then "Completed" when
      its colour is missing or falsy. */
  function InvalidSettings(courses: seq<Course>, cs: ColorSettings, palette: set<string>): Result<seq<string>> {
    match InvalidCourses(courses, cs, palette)
    case Err(f) => Err(f)
    case Ok(names) => Ok(if CompletedColorSet(cs) then names else names + ["Completed"])
  }

  /** Builds `invalid_settings` by appending, course by course, then
      "Completed" last. */
  method CollectInvalidSettings(courses: seq<Course>, cs: ColorSettings, palette: set<string>)
    returns (r: Result<seq<string>>)
    ensures r == InvalidSettings(courses, cs, palette)
  {
    var invalid := [];
    for i := 0 to |courses|
      invariant InvalidCourses(courses[..i], cs, palette) == Ok(invalid)
    {
      assert courses[..i + 1][..i] == courses[..i];
      var ok := CourseColorOk(cs, courses[i].name, palette);
      if ok.Err? {
        InvalidCoursesErrPersists(courses[..i + 1], courses[i + 1..], cs, palette);
        assert courses[..i + 1] + courses[i + 1..] == courses;
        return Err(ok.fault);
      }
      if !ok.value {
        invalid := invalid + [courses[i].name];
      }
    }
    assert courses[..|courses|] == courses;
    if !CompletedColorSet(cs) {
      invalid := invalid + ["Completed"];
    }
    r := Ok(invalid);
  }

  /** `{ course_name: "" for course_name, _ in gradescope_courses }`. */
  function EmptyCourseColors(courses: seq<Course>): (t: ColorSettings)
    ensures t.Keys == set c | c in courses :: c.name
    ensures forall k :: k in t ==> t[k] == Str("")
  {
    if courses == [] then map[]
    else
      var n := |courses| - 1;
      assert courses == courses[..n] + [courses[n]];
      EmptyCourseColors(courses[..n])[courses[n].name := Str("")]
  }

  /** The template written when there are no settings: every course name and
      "Completed", each mapped to the empty string. */
  function Template(courses: seq<Course>): (t: ColorSettings)
    ensures t.Keys == (set c | c in courses :: c.name) + {"Completed"}
    ensures forall k :: k in t ==> t[k] == Str("")
  {
    EmptyCourseColors(courses)["Completed" := Str("")]
  }

  /** What the colour check decides: go on, or print the invalid keys and exit, or
      write the template and exit. */
  datatype Verdict = Proceed | ReportInvalid(keys: seq<string>) | WriteTemplate(template: ColorSettings)

  /** The whole block of gradescope-calendar.py that validates the settings. */
  function CheckColors(settings: Option<ColorSettings>, courses: seq<Course>, palette: set<string>): (r: Result<Verdict>)
    ensures !ValidationRuns(settings) ==> r == Ok(Proceed)
    ensures r == Ok(Proceed) ==> HasSettings(settings)
  {
    if !ValidationRuns(settings) then Ok(Proceed)
    else if !HasSettings(settings) then Ok(WriteTemplate(Template(courses)))
    else
      var cs := settings.value;
      match AllCourseColorsOk(courses, cs, palette)
      case Err(f) => Err(f)
      case Ok(all) =>
        if all && CompletedColorSet(cs) then Ok(Proceed)
        else match InvalidSettings(courses, cs, palette)
          case Err(f) => Err(f)
          case Ok(keys) => Ok(ReportInvalid(keys))
  }

  /** The colour check as the script runs it, with the invalid list built by
      `CollectInvalidSettings`. */
  method ValidateColorSettings(settings: Option<ColorSettings>, courses: seq<Course>, palette: set<string>)
    returns (r: Result<Verdict>)
    ensures r == CheckColors(settings, courses, palette)
  {
    if !ValidationRuns(settings) {
      return Ok(Proceed);
    }
    if !HasSettings(settings) {
      return Ok(WriteTemplate(Template(courses)));
    }
    var cs := settings.value;
    var all := AllCourseColorsOk(courses, cs, palette);
    if all.Err? {
      return Err(all.fault);
    }
    if all.value && CompletedColorSet(cs) {
      return Ok(Proceed);
    }
    var keys := CollectInvalidSettings(courses, cs, palette);
    if keys.Err? {
      return Err(keys.fault);
    }
    r := Ok(ReportInvalid(keys.value));
  }

  /** When the colour check runs on settings, they are accepted exactly when every
      course maps to a colour of the palette and "Completed" is set. */
  lemma {:induction false} AcceptedIff(settings: Option<ColorSettings>, courses: seq<Course>, palette: set<string>)
    requires ValidationRuns(settings) && HasSettings(settings)
    ensures CheckColors(settings, courses, palette) == Ok(Proceed) <==>
            && (forall k :: 0 <= k < |courses| ==> CourseColorOk(settings.value, courses[k].name, palette) == Ok(true))
            && CompletedColorSet(settings.value)
  {
    AllCourseColorsOkSpec(courses, settings.value, palette);
  }

  /** Settings that are rejected are reported with a non-empty list: the
      invalid course names in order, then "Completed" if it is not set. */
  lemma {:induction false} RejectedListsSomething(settings: Option<ColorSettings>, courses: seq<Course>, palette: set<string>)
    requires ValidationRuns(settings) && HasSettings(settings)
    requires CheckColors(settings, courses, palette).Ok? && CheckColors(settings, courses, palette).value.ReportInvalid?
    ensures InvalidSettings(courses, settings.value, palette).Ok?
    ensures CheckColors(settings, courses, palette).value.keys == InvalidSettings(courses, settings.value, palette).value
    ensures CheckColors(settings, courses, palette).value.keys != []
  {
    var cs := settings.value;
    AcceptedIff(settings, courses, palette);
    if CompletedColorSet(cs) {
      var k :| 0 <= k < |courses| && CourseColorOk(cs, courses[k].name, palette) != Ok(true);
      InvalidCoursesOk(courses, cs, palette);
      InvalidCoursesMembers(courses, cs, palette, courses[k].name);
    }
  }

  /** Without settings the template is written; with settings it never is. */
  lemma TemplateOnlyWithoutSettings(settings: Option<ColorSettings>, courses: seq<Course>, palette: set<string>)
    ensures CheckColors(settings, courses, palette).Ok? && CheckColors(settings, courses, palette).value.WriteTemplate?
            <==> !HasSettings(settings)
    ensures !HasSettings(settings) ==> CheckColors(settings, courses, palette) == Ok(WriteTemplate(Template(courses)))
  {
  }

  /** Once the colour check has run and accepted the settings, every colour the
      reconciliation looks up is present. */
  lemma {:induction false} AcceptedSettingsHaveColors(settings: Option<ColorSettings>, courses: seq<Course>, palette: set<string>)
    requires ValidationRuns(settings)
    requires CheckColors(settings, courses, palette) == Ok(Proceed)
    ensures HasSettings(settings)
    ensures forall k :: 0 <= k < |courses| ==> courses[k].name in settings.value
    ensures "Completed" in settings.value
  {
    AcceptedIff(settings, courses, palette);
  }
}

=== FILE: events.dfy ===
/** The assignment region of utils.py on the calendar side: finding the
    calendar event of an assignment, the body of the event created for it,
    and the batch that collects the queued insert and patch requests. */
module Events {
  import opened Base
  import opened Json
  import opened Gradescope

  /** An event as the calendar lists it. A listed event may lack a title
      (`summary`) or a timed start (`start.dateTime`, absent on all-day
      events); `id` and `status` are always present. */
  datatype Event = Event(id: string, summary: Option<string>, start: Option<Instant>,
                         status: string, colorId: Option<Value>)

  /** The body of an insert request. */
  datatype EventBody = EventBody(summary: string, description: string,
                                 start: Instant, end: Instant, colorId: Value)

  /** A request queued on the batch. */
  datatype Request =
    | Insert(calendarId: string, body: EventBody)
    | Patch(calendarId: string, eventId: string, colorId: Value)

  /** The test of `get_assignment_in_calendar` for one event:
      `event["summary"] == name and fromisoformat(event["start"]["dateTime"]) == normal`.
      A missing title raises; a missing start raises only once the title
      matched; the late due date plays no part. */
  function MatchTest(e: Event, a: Assignment): (r: Result<bool>)
    ensures r == Ok(true) <==> e.summary == Some(a.name) && e.start == Some(a.due.normal)
    ensures r.Err? <==> e.summary.None? || (e.summary == Some(a.name) && e.start.None?)
    ensures r.Err? ==> r.fault == MissingKey(if e.summary.None? then "summary" else "dateTime")
  {
    match e.summary
    case None => Err(MissingKey("summary"))
    case Some(title) =>
      if title != a.name then Ok(false)
      else match e.start
        case None => Err(MissingKey("dateTime"))
        case Some(t) => Ok(t == a.due.normal)
  }

  /** The outcome of the search: the first event, in listing order, that
      matches, `None` when none does, or the fault of the first event whose
      test raises before a match is found. */
  function FirstMatch(events: seq<Event>, a: Assignment): Result<Option<Event>> {
    if events == [] then Ok(None)
    else
      match MatchTest(events[0], a)
      case Err(f) => Err(f)
      case Ok(true) => Ok(Some(events[0]))
      case Ok(false) => FirstMatch(events[1..], a)
  }

  /** The search finds nothing exactly when every event fails the test; a
      found event is the first that passes it; a fault is that of an event
      whose test raises with every event before it failing the test. */
  lemma {:induction false} FirstMatchSpec(events: seq<Event>, a: Assignment)
    ensures var r := FirstMatch(events, a);
      r.Ok? && r.value.None? <==> forall k :: 0 <= k < |events| ==> MatchTest(events[k], a) == Ok(false)
    ensures var r := FirstMatch(events, a);
      r.Ok? && r.value.Some? ==>
      exists k :: && 0 <= k < |events| && events[k] == r.value.value
                  && MatchTest(events[k], a) == Ok(true)
                  && forall j :: 0 <= j < k ==> MatchTest(events[j], a) == Ok(false)
    ensures var r := FirstMatch(events, a);
      r.Err? ==>
      exists k :: && 0 <= k < |events| && MatchTest(events[k], a) == Err(r.fault)
                  && forall j :: 0 <= j < k ==> MatchTest(events[j], a) == Ok(false)
  {
    if events != [] {
      var rest := events[1..];
      FirstMatchSpec(rest, a);
      assert forall k :: 1 <= k < |events| ==> events[k] == rest[k - 1];
      var r := FirstMatch(events, a);
      if MatchTest(events[0], a) == Ok(false) {
        if r.Ok? && r.value.Some? {
          var k :| && 0 <= k < |rest| && rest[k] == r.value.value
                   && MatchTest(rest[k], a) == Ok(true)
                   && forall j :: 0 <= j < k ==> MatchTest(rest[j], a) == Ok(false);
          assert events[k + 1] == r.value.value && MatchTest(events[k + 1], a) == Ok(true);
          assert forall j :: 0 <= j < k + 1 ==> MatchTest(events[j], a) == Ok(false) by {
            forall j | 0 <= j < k + 1 ensures MatchTest(events[j], a) == Ok(false) {
              if j > 0 {
                assert events[j] == rest[j - 1];
              }
            }
          }
        }
        if r.Err? {
          var k :| && 0 <= k < |rest| && MatchTest(rest[k], a) == Err(r.fault)
                   && forall j :: 0 <= j < k ==> MatchTest(rest[j], a) == Ok(false);
          assert MatchTest(events[k + 1], a) == Err(r.fault);
          assert forall j :: 0 <= j < k + 1 ==> MatchTest(events[j], a) == Ok(false) by {
            forall j | 0 <= j < k + 1 ensures MatchTest(events[j], a) == Ok(false) {
              if j > 0 {
                assert events[j] == rest[j - 1];
              }
            }
          }
        }
      }
    }
  }

  /** Only the assignment's name and normal due date take part in matching:
      its late due date and its completion state do not. */
  lemma {:induction false} FirstMatchIgnoresLateAndCompletion(events: seq<Event>, a: Assignment, b: Assignment)
    requires a.name == b.name && a.due.normal == b.due.normal
    ensures FirstMatch(events, a) == FirstMatch(events, b)
    decreases |events|
  {
    if events != [] {
      FirstMatchIgnoresLateAndCompletion(events[1..], a, b);
    }
  }

  /** `get_assignment_in_calendar`: a linear search with early return. */
  method GetAssignmentInCalendar(a: Assignment, events: seq<Event>) returns (r: Result<Option<Event>>)
    ensures r == FirstMatch(events, a)
  {
    var i := 0;
    while i < |events|
      invariant 0 <= i <= |events|
      invariant FirstMatch(events[i..], a) == FirstMatch(events, a)
    {
      var e := events[i];
      assert events[i..][0] == e && events[i..][1..] == events[i + 1..];
      var test := MatchTest(e, a);
      if test.Err? {
        return Err(test.fault);
      }
      if test.value {
        return Ok(Some(e));
      }
      i := i + 1;
    }
    assert events[i..] == [];
    r := Ok(None);
  }

  /** The colour an event created now gets: the "Completed" colour for a
      completed assignment, the course's colour otherwise; a missing key
      raises `KeyError`. */
  function ColorFor(settings: map<string, Value>, courseName: string, completed: bool): (r: Result<Value>)
    ensures var key := if completed then "Completed" else courseName;
      && (r.Ok? <==> key in settings)
      && (r.Ok? ==> r.value == settings[key])
      && (r.Err? ==> r.fault == MissingKey(key))
  {
    var key := if completed then "Completed" else courseName;
    if key in settings then Ok(settings[key]) else Err(MissingKey(key))
  }

  /** The description of a created event: a link to the course page. */
  function CourseLink(courseName: string, courseUrl: string): string {
    "Assignment for <a href=\"" + FormatGradescopeUrl(courseUrl) + "\">" + courseName + "</a> on Gradescope"
  }

  /** The event `create_assignment_event` builds: titled with the
      assignment's name, starting and ending at its normal due date (the late
      date is not used), coloured by `ColorFor`. */
  function AssignmentEvent(courseName: string, courseUrl: string, a: Assignment,
                           settings: map<string, Value>): (r: Result<EventBody>)
    ensures r.Ok? <==> ColorFor(settings, courseName, a.completed).Ok?
    ensures r.Err? ==> r.fault == ColorFor(settings, courseName, a.completed).fault
    ensures r.Ok? ==> && r.value.summary == a.name
                      && r.value.start == a.due.normal && r.value.end == a.due.normal
                      && r.value.colorId == ColorFor(settings, courseName, a.completed).value
                      && r.value.description == CourseLink(courseName, courseUrl)
  {
    match ColorFor(settings, courseName, a.completed)
    case Err(f) => Err(f)
    case Ok(color) => Ok(EventBody(a.name, CourseLink(courseName, courseUrl),
                                   a.due.normal, a.due.normal, color))
  }

  /** The batch request: requests are queued in order and sent together once. */
  class Batch {
    var requests: seq<Request>

    constructor ()
      ensures requests == []
    {
      requests := [];
    }

    /** `batch.add(request)`. */
    method Add(r: Request)
      modifies this
      ensures requests == old(requests) + [r]
    {
      requests := requests + [r];
    }
  }

  /** `create_assignment_event`: queues exactly one insert on the batch, or
      raises before queuing anything when the colour key is missing. */
  method CreateAssignmentEvent(batch: Batch, calendarId: string, courseName: string,
                               courseUrl: string, a: Assignment, settings: map<string, Value>)
    returns (fault: Option<Fault>)
    modifies batch
    ensures match AssignmentEvent(courseName, courseUrl, a, settings)
            case Err(f) => fault == Some(f) && batch.requests == old(batch.requests)
            case Ok(body) => fault.None? && batch.requests == old(batch.requests) + [Insert(calendarId, body)]
  {
    var body := AssignmentEvent(courseName, courseUrl, a, settings);
    if body.Err? {
      return Some(body.fault);
    }
    batch.Add(Insert(calendarId, body.value));
    fault := None;
  }
}

=== FILE: gradescope.dfy ===
/** The Gradescope-facing helpers of utils.py: building Gradescope URLs,
    `transform_or_default`, reading an assignment row's name and the due
    dates held by its progress element. */
module Gradescope {
  import opened Base
  import opened Text
  import opened Html
  import Timestamp

  const GradescopeOrigin := "https://www.gradescope.com"

  /** The due dates of an assignment: the normal deadline and, when Gradescope
      shows one, the late deadline. */
  datatype DueDate = DueDate(normal: Instant, late: Option<Instant>)

  /** One scraped assignment. */
  datatype Assignment = Assignment(name: string, due: DueDate, completed: bool)

  /** `format_gradescope_url`: an absolute Gradescope URL for a site path,
      whether or not the path starts with a slash. */
  function FormatGradescopeUrl(url: string): (r: string)
    ensures StartsWith(r, GradescopeOrigin + "/")
    ensures r == GradescopeOrigin + "/" + (if StartsWith(url, "/") then url[1..] else url)
  {
    GradescopeOrigin + (if StartsWith(url, "/") then url else "/" + url)
  }

  /** A path and the same path with a leading slash give the same URL. */
  lemma FormatGradescopeUrlSlash(p: string)
    requires !StartsWith(p, "/")
    ensures FormatGradescopeUrl("/" + p) == FormatGradescopeUrl(p)
  {
    assert ("/" + p)[1..] == p;
  }

  /** `transform_or_default`: the default exactly when there is no data,
      otherwise the transformed data. */
  function TransformOrDefault<T, U>(data: Option<T>, transform: T -> U, default: U): (r: U)
    ensures data.None? ==> r == default
    ensures data.Some? ==> r == transform(data.value)
  {
    if data.None? then default else transform(data.value)
  }

  /** Python's `.strip()` applied to an element's `.text`, which raises when
      the element has no text. */
  function StripText(text: Option<string>): (r: Result<string>)
    ensures r.Ok? <==> text.Some?
    ensures r.Err? ==> r.fault == StripOfNone
    ensures r.Ok? ==> r.value == Strip(text.value)
    ensures r.Ok? ==> Trimmed(r.value) && |r.value| <= |text.value|
  {
    if text.None? then Err(StripOfNone) else Ok(Strip(text.value))
  }

  function ElementText(e: Element): Option<string> {
    e.text
  }

  /** The element whose text names the assignment: the first child of the
      row's `th` cell when it has children, the `th` itself otherwise. */
  function NameElement(th: Element): Element {
    if |th.children| > 0 then th.children[0] else th
  }

  const UnknownAssignment := "<Unknown Assignment>"

  /** `get_assignment_name`: `len(None)` raises before the default could be
      used when the row has no `th`, and `.strip()` raises when the naming
      element has no text, so the default name is never produced. */
  function GetAssignmentName(row: Element): (r: Result<string>)
    ensures Find(row, "th").None? ==> r == Err(LengthOfNone)
    ensures Find(row, "th").Some? ==>
      var named := NameElement(Find(row, "th").value);
      && (r.Ok? <==> named.text.Some?)
      && (r.Ok? ==> r.value == Strip(named.text.value))
      && (r.Err? ==> r.fault == StripOfNone)
  {
    match Find(row, "th")
    case None => Err(LengthOfNone)
    case Some(th) =>
      StripText(TransformOrDefault(Some(NameElement(th)), ElementText, Some(UnknownAssignment)))
  }

  /** `datetime.strptime(t.get("datetime"), GRADESCOPE_DATETIME_FORMAT)` for
      one `<time>` element, as the instant it denotes. */
  function ReadTime(t: Element): (r: Result<Instant>)
    ensures "datetime" !in t.attributes ==> r == Err(TimestampNotAString)
    ensures "datetime" in t.attributes ==>
      var parsed := Timestamp.Parse(t.attributes["datetime"]);
      && (r.Ok? <==> parsed.Some?)
      && (r.Ok? ==> r.value == Timestamp.ToInstant(parsed.value))
      && (r.Err? ==> r.fault == MalformedTimestamp)
  {
    if "datetime" !in t.attributes then Err(TimestampNotAString)
    else match Timestamp.Parse(t.attributes["datetime"])
      case None => Err(MalformedTimestamp)
      case Some(st) => Ok(Timestamp.ToInstant(st))
  }

  /** A `<time>` element carrying the zero-padded spelling of a timestamp
      reads as that timestamp's instant. */
  lemma {:induction false} ReadFormattedTime(t: Element, st: Timestamp.Stamp)
    requires Timestamp.Valid(st)
    requires "datetime" in t.attributes && t.attributes["datetime"] == Timestamp.Format(st)
    ensures ReadTime(t) == Ok(Timestamp.ToInstant(st))
  {
    Timestamp.ParseFormat(st);
  }

  /** The due dates read from the `<time>` children of a progress element:
      the normal date from the second, the late date from the third when
      there is one; fewer than two raise `IndexError`. The first `<time>` and
      any after the third are never read. */
  function DueDateFromTimes(times: seq<Element>): (r: Result<DueDate>)
    ensures r == Err(IndexOutOfRange) <==> |times| < 2
    ensures r.Ok? <==> |times| >= 2 && ReadTime(times[1]).Ok?
                       && (|times| > 2 ==> ReadTime(times[2]).Ok?)
    ensures r.Ok? ==> Ok(r.value.normal) == ReadTime(times[1])
    ensures r.Ok? ==> (r.value.late.Some? <==> |times| > 2)
    ensures r.Ok? && |times| > 2 ==> Ok(r.value.late.value) == ReadTime(times[2])
  {
    if |times| < 2 then Err(IndexOutOfRange)
    else match ReadTime(times[1])
      case Err(f) => Err(f)
      case Ok(normal) =>
        if |times| > 2 then
          match ReadTime(times[2])
          case Err(f) => Err(f)
          case Ok(late) => Ok(DueDate(normal, Some(late)))
        else Ok(DueDate(normal, None))
  }

  /** `due_date_from_progress_div`. */
  function DueDateFromProgressDiv(progress: Element): Result<DueDate> {
    DueDateFromTimes(FindAll(progress, "time"))
  }

  /** Which `<time>` child of the progress element each due date is read
      from, counting the `<time>` children before it in document order: the
      one with one before it gives the normal date, the one with two before
      it the late date, and any other can be replaced by another `<time>`
      element without changing the outcome. */
  lemma DueDateFromProgressDivReads(progress: Element, p: nat, t: Element)
    requires p < |progress.children| && progress.children[p].tag == "time" && t.tag == "time"
    ensures var n := |AllTagged(progress.children[..p], "time")|;
            var r := DueDateFromProgressDiv(progress);
      && (n == 1 && ReadTime(progress.children[p]).Err? ==>
            r == Err(ReadTime(progress.children[p]).fault))
      && (n == 1 && r.Ok? ==> Ok(r.value.normal) == ReadTime(progress.children[p]))
      && (n == 2 && ReadTime(progress.children[p]).Err? ==> r.Err?)
      && (n == 2 && r.Ok? ==> r.value.late.Some? && Ok(r.value.late.value) == ReadTime(progress.children[p]))
      && (n != 1 && n != 2 ==>
            DueDateFromProgressDiv(progress.(children := progress.children[p := t])) == r)
  {
    var cs := progress.children;
    AllTaggedAt(cs, p, "time", t);
    var n := |AllTagged(cs[..p], "time")|;
    if n != 1 && n != 2 {
      UnreadTimeReplaced(AllTagged(cs, "time"), n, t);
    }
  }

  /** Replacing the first `<time>` element or one after the third leaves the
      due dates unchanged. */
  lemma UnreadTimeReplaced(times: seq<Element>, n: nat, t: Element)
    requires n < |times| && n != 1 && n != 2
    ensures DueDateFromTimes(times[n := t]) == DueDateFromTimes(times)
  {
    if n == 0 && |times| >= 2 {
      DueDateIgnoresOtherTimes(times, t);
      assert times[0 := t] == [t] + times[1..];
    } else if n >= 3 {
      var replaced := times[n := t];
      DueDateIgnoresOtherTimes(times, t);
      DueDateIgnoresOtherTimes(replaced, t);
      assert replaced[..3] == times[..3];
    }
  }

  /** Only the second and third `<time>` elements matter: replacing the first
      or dropping those after the third leaves the due dates unchanged. */
  lemma DueDateIgnoresOtherTimes(times: seq<Element>, first: Element)
    requires |times| >= 2
    ensures DueDateFromTimes([first] + times[1..]) == DueDateFromTimes(times)
    ensures |times| > 3 ==> DueDateFromTimes(times[..3]) == DueDateFromTimes(times)
  {
  }
}

=== FILE: html.dfy ===
/** The parsed HTML page as a tree of elements, and the three ways the script
    navigates it: positional indexing `e[i]`, `e.find("./tag")` and
    `e.findall("./tag")`. */
module Html {
  import opened Base

  /** An element: its tag, its attributes, the text before its first child
      (`None` when there is none, as lxml's `.text`) and its child elements. */
  datatype Element = Element(tag: string, attributes: map<string, string>,
                             text: Option<string>, children: seq<Element>)

  /** `e[i]`: the child at index `i`, or `IndexError`. */
  function Child(e: Element, i: nat): (r: Result<Element>)
    ensures r.Ok? <==> i < |e.children|
    ensures r.Err? ==> r.fault == IndexOutOfRange
    ensures r.Ok? ==> r.value == e.children[i]
  {
    if i < |e.children| then Ok(e.children[i]) else Err(IndexOutOfRange)
  }

  /** The first element of `cs` with tag `tag`. */
  function FirstTagged(cs: seq<Element>, tag: string): (r: Option<Element>)
    ensures r.None? <==> forall k :: 0 <= k < |cs| ==> cs[k].tag != tag
    ensures r.Some? ==> exists k :: 0 <= k < |cs| && cs[k] == r.value && cs[k].tag == tag
                                    && forall j :: 0 <= j < k ==> cs[j].tag != tag
  {
    if cs == [] then None
    else if cs[0].tag == tag then
      assert cs[0] == cs[0];
      Some(cs[0])
    else
      var r := FirstTagged(cs[1..], tag);
      assert forall k :: 1 <= k < |cs| ==> cs[k] == cs[1..][k - 1];
      r
  }

  /** `e.find("./tag")`: the first child with that tag, if any. */
  function Find(e: Element, tag: string): Option<Element> {
    FirstTagged(e.children, tag)
  }

  /** The elements of `cs` with tag `tag`, in document order. */
  function AllTagged(cs: seq<Element>, tag: string): (r: seq<Element>)
    ensures |r| <= |cs|
    ensures forall x :: x in r ==> x in cs && x.tag == tag
    ensures forall x :: x in cs && x.tag == tag ==> x in r
  {
    if cs == [] then []
    else if cs[0].tag == tag then [cs[0]] + AllTagged(cs[1..], tag)
    else AllTagged(cs[1..], tag)
  }

  /** `e.findall("./tag")`: every child with that tag, in document order. */
  function FindAll(e: Element, tag: string): seq<Element> {
    AllTagged(e.children, tag)
  }

  /** Collecting over two runs of siblings collects over the first run and
      then over the second. */
  lemma {:induction false} AllTaggedAppend(a: seq<Element>, b: seq<Element>, tag: string)
    ensures AllTagged(a + b, tag) == AllTagged(a, tag) + AllTagged(b, tag)
    decreases |a|
  {
    if a == [] {
      assert a + b == b;
    } else {
      assert (a + b)[0] == a[0];
      assert (a + b)[1..] == a[1..] + b;
      AllTaggedAppend(a[1..], b, tag);
      if a[0].tag == tag {
        calc {
          AllTagged(a + b, tag);
          [a[0]] + AllTagged(a[1..] + b, tag);
          [a[0]] + (AllTagged(a[1..], tag) + AllTagged(b, tag));
          ([a[0]] + AllTagged(a[1..], tag)) + AllTagged(b, tag);
        }
      }
    }
  }

  /** A single element is collected exactly when it carries the tag. */
  lemma AllTaggedOne(x: Element, tag: string)
    ensures AllTagged([x], tag) == if x.tag == tag then [x] else []
  {
  }

  /** A child with the tag sits in the collected list at the position given
      by the number of tagged children before it, and replacing it by another
      element with the tag replaces exactly that entry. */
  lemma AllTaggedAt(cs: seq<Element>, p: nat, tag: string, t: Element)
    requires p < |cs| && cs[p].tag == tag && t.tag == tag
    ensures var n := |AllTagged(cs[..p], tag)|;
      && n < |AllTagged(cs, tag)|
      && AllTagged(cs, tag)[n] == cs[p]
      && AllTagged(cs[p := t], tag) == AllTagged(cs, tag)[n := t]
  {
    var front, back := cs[..p], cs[p + 1..];
    var before, after := AllTagged(front, tag), AllTagged(back, tag);
    SplitAt(cs, p, t);
    AllTaggedOne(cs[p], tag);
    AllTaggedOne(t, tag);
    AllTaggedAppend([cs[p]], back, tag);
    AllTaggedAppend([t], back, tag);
    AllTaggedAppend(front, [cs[p]] + back, tag);
    AllTaggedAppend(front, [t] + back, tag);
    assert AllTagged(cs, tag) == before + ([cs[p]] + after);
    assert AllTagged(cs[p := t], tag) == before + ([t] + after);
    SpliceAt(before, cs[p], t, after);
  }

  /** A sequence around its element at `p`, before and after replacing it. */
  lemma SplitAt<T>(cs: seq<T>, p: nat, t: T)
    requires p < |cs|
    ensures cs == cs[..p] + ([cs[p]] + cs[p + 1..])
    ensures cs[p := t] == cs[..p] + ([t] + cs[p + 1..])
  {
  }

  /** Replacing the middle of a three-part sequence replaces the entry at
      the length of the first part. */
  lemma SpliceAt<T>(front: seq<T>, x: T, y: T, back: seq<T>)
    ensures (front + ([x] + back))[|front|] == x
    ensures front + ([y] + back) == (front + ([x] + back))[|front| := y]
  {
  }
}

=== FILE: json.dfy ===
/** The values `json.load` yields for the colour-settings file, reduced to
    what the script observes of them: their truthiness and whether they are
    a key of the calendar's colour palette. */
module Json {
  import opened Base

  /** Arrays and objects are kept only by their size: the script never looks
      inside them. */
  datatype Value = Str(s: string) | Bool(b: bool) | Num(n: int) | Null
                 | Array(length: nat) | Object(size: nat)

  /** Python truthiness of a decoded JSON value. */
  predicate IsTruthy(v: Value) {
    match v
    case Str(s) => s != ""
    case Bool(b) => b
    case Num(n) => n != 0
    case Null => false
    case Array(n) => n > 0
    case Object(n) => n > 0
  }

  /** `v in palette` for a dict whose keys are the strings `keys`: lists and
      dicts are unhashable and raise `TypeError`; other non-strings are never
      equal to a string key. */
  function InKeys(v: Value, keys: set<string>): (r: Result<bool>)
    ensures r.Err? <==> v.Array? || v.Object?
    ensures r.Err? ==> r.fault == Unhashable
    ensures r == Ok(true) <==> v.Str? && v.s in keys
  {
    match v
    case Str(s) => Ok(s in keys)
    case Array(_) => Err(Unhashable)
    case Object(_) => Err(Unhashable)
    case _ => Ok(false)
  }
}

=== FILE: scrape.dfy ===
/** The scraping stage of gradescope-calendar.py: the course list, each
    course's assignment rows, and the filter applied to the result. The HTTP
    fetches and XPath queries are not modelled: their results (the course
    anchors and, per course, the assignment table's rows) are the inputs. */
module Scrape {
  import opened Base
  import opened Text
  import opened Html
  import opened Gradescope

  /** A course as scraped: its name and its site path. */
  datatype Course = Course(name: string, url: string)

  const UnknownCourse := "<Unknown Course>"

  /** The course name read from a course anchor: the stripped text of its
      `h3` child, the placeholder when there is no `h3`; an `h3` without
      text raises. */
  function CourseName(anchor: Element): (r: Result<string>)
    ensures Find(anchor, "h3").None? ==> r == Ok(UnknownCourse)
    ensures Find(anchor, "h3").Some? ==>
      var h3 := Find(anchor, "h3").value;
      && (r.Ok? <==> h3.text.Some?)
      && (r.Ok? ==> r.value == Strip(h3.text.value))
  {
    assert Trimmed(UnknownCourse);
    StripText(TransformOrDefault(Find(anchor, "h3"), ElementText, Some(UnknownCourse)))
  }

  /** One element of `gradescope_courses`: the name, then `attrib["href"]`. */
  function CourseFromAnchor(anchor: Element): (r: Result<Course>)
    ensures r.Ok? <==> CourseName(anchor).Ok? && "href" in anchor.attributes
    ensures r.Ok? ==> r.value == Course(CourseName(anchor).value, anchor.attributes["href"])
    ensures CourseName(anchor).Ok? && "href" !in anchor.attributes ==> r == Err(MissingKey("href"))
  {
    match CourseName(anchor)
    case Err(f) => Err(f)
    case Ok(name) =>
      if "href" in anchor.attributes then Ok(Course(name, anchor.attributes["href"]))
      else Err(MissingKey("href"))
  }

  /** `gradescope_courses`: one course per anchor, in page order; the first
      anchor that raises ends the run. */
  function ScrapeCourses(anchors: seq<Element>): (r: Result<seq<Course>>)
    ensures r.Ok? ==> |r.value| == |anchors|
  {
    Collect(AnchorOutcomes(anchors))
  }

  /** What each anchor yields, in page order. */
  function AnchorOutcomes(anchors: seq<Element>): (r: seq<Result<Course>>)
    ensures |r| == |anchors|
    ensures forall k :: 0 <= k < |anchors| ==> r[k] == CourseFromAnchor(anchors[k])
  {
    seq(|anchors|, k requires 0 <= k < |anchors| => CourseFromAnchor(anchors[k]))
  }

  /** The course list succeeds exactly when every anchor does, and then holds
      each anchor's course at the anchor's position; otherwise it raises the
      fault of the first anchor that raises. */
  lemma ScrapeCoursesSpec(anchors: seq<Element>)
    ensures ScrapeCourses(anchors).Ok? <==> forall k :: 0 <= k < |anchors| ==> CourseFromAnchor(anchors[k]).Ok?
    ensures ScrapeCourses(anchors).Ok? ==>
      forall k :: 0 <= k < |anchors| ==> Ok(ScrapeCourses(anchors).value[k]) == CourseFromAnchor(anchors[k])
    ensures ScrapeCourses(anchors).Err? ==>
      exists k :: && 0 <= k < |anchors| && CourseFromAnchor(anchors[k]) == Err(ScrapeCourses(anchors).fault)
                  && forall j :: 0 <= j < k ==> CourseFromAnchor(anchors[j]).Ok?
  {
    CollectSpec(AnchorOutcomes(anchors));
  }

  /** `assignment[2][0]`: the cell whose length tells whether the row has a
      progress bar. */
  function ProgressCell(row: Element): Result<Element> {
    match Child(row, 2)
    case Err(f) => Err(f)
    case Ok(third) => Child(third, 0)
  }

  /** `assignment[1][1].text == "Submitted"`: exact comparison, no stripping. */
  function IsSubmitted(row: Element): (r: Result<bool>)
    ensures r.Ok? <==> |row.children| > 1 && |row.children[1].children| > 1
    ensures r.Err? ==> r.fault == IndexOutOfRange
    ensures r.Ok? ==> (r.value <==> row.children[1].children[1].text == Some("Submitted"))
  {
    match Child(row, 1)
    case Err(f) => Err(f)
    case Ok(status) =>
      match Child(status, 1)
      case Err(f) => Err(f)
      case Ok(badge) => Ok(badge.text == Some("Submitted"))
  }

  /** One step of the assignment comprehension. The guard
      `len(assignment[2][0]) > 1` is evaluated first: a row it rejects yields
      nothing and nothing else of it is read. A row it accepts yields the
      assignment built from its name, the due dates of `assignment[2][0][2]`
      and its submission label, read in that order. */
  function ParseRow(row: Element): Result<Option<Assignment>>
  {
    match ProgressCell(row)
    case Err(f) => Err(f)
    case Ok(cell) =>
      if |cell.children| > 1 then
        match GetAssignmentName(row)
        case Err(f) => Err(f)
        case Ok(name) =>
          match Child(cell, 2)
          case Err(f) => Err(f)
          case Ok(progress) =>
            match DueDateFromProgressDiv(progress)
            case Err(f) => Err(f)
            case Ok(due) =>
              match IsSubmitted(row)
              case Err(f) => Err(f)
              case Ok(completed) => Ok(Some(Assignment(name, due, completed)))
      else Ok(None)
  }

  /** What one row yields, read in the order the source reads it: a fault
      of the guard's own indexing; nothing for a row the guard rejects; for a
      row it accepts, the fault of the name, then of index 2 of the progress
      cell, then of the due dates, then of the submission label, whichever
      comes first; and otherwise the assignment built from exactly those
      readings. */
  lemma ParseRowSpec(row: Element)
    ensures ProgressCell(row).Err? ==> ParseRow(row) == Err(ProgressCell(row).fault)
    ensures ProgressCell(row).Ok? && |ProgressCell(row).value.children| <= 1 ==> ParseRow(row) == Ok(None)
    ensures ProgressCell(row).Ok? && |ProgressCell(row).value.children| > 1 ==>
      var cell := ProgressCell(row).value;
      var name, completed := GetAssignmentName(row), IsSubmitted(row);
      && (name.Err? ==> ParseRow(row) == Err(name.fault))
      && (name.Ok? && |cell.children| == 2 ==> ParseRow(row) == Err(IndexOutOfRange))
      && (name.Ok? && |cell.children| > 2 ==>
            var due := DueDateFromProgressDiv(cell.children[2]);
            && (due.Err? ==> ParseRow(row) == Err(due.fault))
            && (due.Ok? && completed.Err? ==> ParseRow(row) == Err(completed.fault))
            && (due.Ok? && completed.Ok? ==>
                  ParseRow(row) == Ok(Some(Assignment(name.value, due.value, completed.value)))))
    ensures ParseRow(row).Ok? && ParseRow(row).value.Some? ==>
      var cell := ProgressCell(row).value;
      var a := ParseRow(row).value.value;
      && |cell.children| > 2
      && Ok(a.name) == GetAssignmentName(row)
      && Ok(a.due) == DueDateFromProgressDiv(cell.children[2])
      && Ok(a.completed) == IsSubmitted(row)
  {
  }

  /** The guard admits a progress cell with exactly two children, but the
      progress element is then read at index 2: such a row raises
      `IndexError` (once its name has been read). */
  lemma GuardAdmitsTwoChildCell(row: Element)
    requires ProgressCell(row).Ok? && |ProgressCell(row).value.children| == 2
    requires GetAssignmentName(row).Ok?
    ensures ParseRow(row) == Err(IndexOutOfRange)
  {
  }

  /** What each row yields, in row order. */
  function RowOutcomes(rows: seq<Element>): (r: seq<Result<Option<Assignment>>>)
    ensures |r| == |rows|
    ensures forall k :: 0 <= k < |rows| ==> r[k] == ParseRow(rows[k])
  {
    seq(|rows|, k requires 0 <= k < |rows| => ParseRow(rows[k]))
  }

  /** The assignment list of one course: one assignment per row the guard
      accepts, in row order; the first row that raises ends the run. */
  function ParseRows(rows: seq<Element>): (r: Result<seq<Assignment>>)
    ensures r.Ok? ==> |r.value| <= |rows|
  {
    CollectPresent(RowOutcomes(rows))
  }

  /** The rows parse exactly when each row does; then every assignment comes
      from some row and every assignment a row yields is kept. */
  lemma ParseRowsSpec(rows: seq<Element>)
    ensures ParseRows(rows).Ok? <==> forall k :: 0 <= k < |rows| ==> ParseRow(rows[k]).Ok?
    ensures ParseRows(rows).Ok? ==> forall a :: a in ParseRows(rows).value ==>
              exists k :: 0 <= k < |rows| && ParseRow(rows[k]) == Ok(Some(a))
    ensures ParseRows(rows).Ok? ==> forall k :: 0 <= k < |rows| && ParseRow(rows[k]).value.Some? ==>
              ParseRow(rows[k]).value.value in ParseRows(rows).value
  {
    var outcomes := RowOutcomes(rows);
    CollectSpec(outcomes);
    if ParseRows(rows).Ok? {
      var found := Collect(outcomes).value;
      forall a | a in ParseRows(rows).value
        ensures exists k :: 0 <= k < |rows| && ParseRow(rows[k]) == Ok(Some(a))
      {
        PresentMembers(found, a);
        var k :| 0 <= k < |found| && found[k] == Some(a);
        assert Ok(found[k]) == outcomes[k];
      }
      forall k | 0 <= k < |rows| && ParseRow(rows[k]).value.Some?
        ensures ParseRow(rows[k]).value.value in ParseRows(rows).value
      {
        assert Ok(found[k]) == outcomes[k];
        PresentMembers(found, ParseRow(rows[k]).value.value);
      }
    }
  }

  /** The outcomes of a row followed by more rows. */
  lemma RowOutcomesCons(row: Element, rows: seq<Element>)
    ensures RowOutcomes([row] + rows) == [ParseRow(row)] + RowOutcomes(rows)
  {
    var all := [row] + rows;
    assert forall k :: 0 <= k < |rows| ==> all[k + 1] == rows[k];
  }

  /** The outcomes of two runs of rows, one after the other. */
  lemma RowOutcomesAppend(a: seq<Element>, b: seq<Element>)
    ensures RowOutcomes(a + b) == RowOutcomes(a) + RowOutcomes(b)
  {
    var all := a + b;
    assert forall k :: 0 <= k < |b| ==> all[|a| + k] == b[k];
  }

  /** Rows read as two runs: the first run's fault, else the second run's
      fault, else the assignments of the first run followed by those of the
      second, so row order and repeated assignments are kept. */
  lemma ParseRowsAppend(a: seq<Element>, b: seq<Element>)
    ensures ParseRows(a).Err? ==> ParseRows(a + b) == ParseRows(a)
    ensures ParseRows(a).Ok? && ParseRows(b).Err? ==> ParseRows(a + b) == ParseRows(b)
    ensures ParseRows(a).Ok? && ParseRows(b).Ok? ==>
              ParseRows(a + b) == Ok(ParseRows(a).value + ParseRows(b).value)
  {
    RowOutcomesAppend(a, b);
    CollectPresentAppend(RowOutcomes(a), RowOutcomes(b));
  }

  /** Rows rejected by the guard contribute nothing, whatever else they hold. */
  lemma SkippedRowsContributeNothing(rows: seq<Element>, skipped: Element)
    requires ProgressCell(skipped).Ok? && |ProgressCell(skipped).value.children| <= 1
    ensures ParseRows([skipped] + rows) == ParseRows(rows)
  {
    RowOutcomesCons(skipped, rows);
    assert ParseRow(skipped) == Ok(None);
    CollectPresentSkipsNone(RowOutcomes(rows));
  }

  /** `gradescope_assignments`: a dict from course name to that course's
      assignments, built course by course from `parsed[i]`, the outcome of
      reading the rows of `courses[i]`; the first course whose rows raise
      ends the build. A later course with the same name replaces the entry
      of an earlier one. */
  function ByCourse(courses: seq<Course>, parsed: seq<Result<seq<Assignment>>>)
    : (r: Result<map<string, seq<Assignment>>>)
    requires |parsed| == |courses|
  {
    if courses == [] then Ok(map[])
    else
      var n := |courses| - 1;
      match ByCourse(courses[..n], parsed[..n])
      case Err(f) => Err(f)
      case Ok(m) =>
        match parsed[n]
        case Err(f) => Err(f)
        case Ok(assignments) => Ok(m[courses[n].name := assignments])
  }

  /** No course after index `i` has the name of course `i`. */
  predicate LastWithName(courses: seq<Course>, i: int)
    requires 0 <= i < |courses|
  {
    forall j :: i < j < |courses| ==> courses[j].name != courses[i].name
  }

  /** The dict is built exactly when every course's rows parse. */
  lemma {:induction false} ByCourseOk(courses: seq<Course>, parsed: seq<Result<seq<Assignment>>>)
    requires |parsed| == |courses|
    ensures ByCourse(courses, parsed).Ok? <==> forall i :: 0 <= i < |courses| ==> parsed[i].Ok?
  {
    if courses != [] {
      var n := |courses| - 1;
      ByCourseOk(courses[..n], parsed[..n]);
      assert forall i :: 0 <= i < n ==> parsed[..n][i] == parsed[i];
    }
  }

  /** Its keys are exactly the course names. */
  lemma {:induction false} ByCourseKeys(courses: seq<Course>, parsed: seq<Result<seq<Assignment>>>)
    requires |parsed| == |courses|
    requires ByCourse(courses, parsed).Ok?
    ensures ByCourse(courses, parsed).value.Keys == set c | c in courses :: c.name
  {
    if courses != [] {
      var n := |courses| - 1;
      ByCourseKeys(courses[..n], parsed[..n]);
      assert courses == courses[..n] + [courses[n]];
    }
  }

  /** A name maps to the assignments of the last course that bears it. */
  lemma {:induction false} ByCourseLastWins(courses: seq<Course>, parsed: seq<Result<seq<Assignment>>>, i: nat)
    requires |parsed| == |courses| && i < |courses|
    requires ByCourse(courses, parsed).Ok?
    requires LastWithName(courses, i)
    ensures courses[i].name in ByCourse(courses, parsed).value
    ensures Ok(ByCourse(courses, parsed).value[courses[i].name]) == parsed[i]
  {
    var n := |courses| - 1;
    if i < n {
      var cs, ps := courses[..n], parsed[..n];
      assert cs[i] == courses[i] && ps[i] == parsed[i];
      assert LastWithName(cs, i);
      ByCourseLastWins(cs, ps, i);
    }
  }

  /** The outcome of reading each course's rows; `tables[i]` holds the rows
      fetched for course `i`. */
  function ParsedTables(tables: seq<seq<Element>>): (r: seq<Result<seq<Assignment>>>)
    ensures |r| == |tables|
    ensures forall i :: 0 <= i < |tables| ==> r[i] == ParseRows(tables[i])
  {
    seq(|tables|, i requires 0 <= i < |tables| => ParseRows(tables[i]))
  }

  /** The dict built from the fetched tables of the courses. */
  function AssignmentsByCourse(courses: seq<Course>, tables: seq<seq<Element>>)
    : (r: Result<map<string, seq<Assignment>>>)
    requires |tables| == |courses|
  {
    ByCourse(courses, ParsedTables(tables))
  }

  /** Python truthiness of a datetime: `datetime` defines neither `__bool__`
      nor `__len__`, so every due date is truthy. */
  predicate DueDateIsTruthy(d: Instant) {
    true
  }

  /** The filter `isinstance(assignment, dict) and assignment["due_date"]["normal"]`
      for one assignment: every scraped assignment is a dict, so only the
      truthiness of its normal due date decides. */
  predicate KeptByPostFilter(a: Assignment) {
    DueDateIsTruthy(a.due.normal)
  }

  /** A list comprehension with a condition: keeps, in order, the elements
      the condition accepts. */
  function KeepIf(assignments: seq<Assignment>, keep: Assignment -> bool): (r: seq<Assignment>)
    ensures |r| <= |assignments|
    ensures forall a :: a in r ==> a in assignments && keep(a)
    ensures forall a :: a in assignments && keep(a) ==> a in r
    ensures (forall k :: 0 <= k < |assignments| ==> keep(assignments[k])) ==> r == assignments
  {
    if assignments == [] then []
    else
      assert forall k :: 1 <= k < |assignments| ==> assignments[k] == assignments[1..][k - 1];
      if keep(assignments[0]) then [assignments[0]] + KeepIf(assignments[1..], keep)
      else KeepIf(assignments[1..], keep)
  }

  /** The post-filter over every course keeps every course and, since every
      due date is truthy, every assignment in its order. */
  function PostFilter(byCourse: map<string, seq<Assignment>>): (r: map<string, seq<Assignment>>)
    ensures r.Keys == byCourse.Keys
    ensures forall k :: k in r ==> r[k] == byCourse[k]
  {
    map k | k in byCourse :: KeepIf(byCourse[k], KeptByPostFilter)
  }
}

=== FILE: script.dfy ===
/** The whole of gradescope-calendar.py as one run: scrape the courses and
    their assignments, check the colour settings, choose the calendar, list
    its events and send one batch of requests. The pages fetched, the
    settings file, the palette, the id a newly created calendar gets and the
    current time are inputs; the outcome is what the run ends with. */
module Script {
  import opened Base
  import opened Json
  import opened Html
  import opened Gradescope
  import opened Calendar
  import opened Events
  import opened Scrape
  import opened Colors
  import opened Sync

  /** How a run ends: an uncaught exception (no batch is sent, but a
      calendar created before the exception, flagged by `createdCalendar`,
      remains), the list of invalid settings, the template written for a
      missing settings file, or the batch sent to the chosen calendar. */
  datatype Outcome =
    | Crashed(fault: Fault, createdCalendar: bool)
    | ColorsInvalid(keys: seq<string>)
    | TemplateWritten(template: ColorSettings)
    | Synced(calendarId: string, createdCalendar: bool, requests: seq<Request>)

  /** `find_gradescope_calendar_id(...) or create_gradescope_calendar(...)`:
      the id found, unless there is none or it is empty, in which case a
      calendar is created. */
  function ChosenCalendar(found: Option<string>, createdId: string): (string, bool) {
    if found.Some? && found.value != "" then (found.value, false) else (createdId, true)
  }

  /** Every scraped course has an entry in the filtered dict, so the nested
      loops of the run can look each course up. */
  lemma ScrapedCovers(courses: seq<Course>, tables: seq<seq<Element>>)
    requires |tables| == |courses|
    requires AssignmentsByCourse(courses, tables).Ok?
    ensures Covers(PostFilter(AssignmentsByCourse(courses, tables).value), courses)
  {
    ByCourseKeys(courses, ParsedTables(tables));
    forall k | 0 <= k < |courses|
      ensures courses[k].name in PostFilter(AssignmentsByCourse(courses, tables).value)
    {
      assert courses[k] in courses;
    }
  }

  /** What one run of the script does. `anchors` are the course links of the
      account page, `tables[i]` the assignment rows of the `i`-th course's
      page, `calendarPages` and `eventPages` the listings of calendars and of
      the chosen calendar's events. */
  function RunSpec(anchors: seq<Element>, tables: seq<seq<Element>>, settings: Option<ColorSettings>,
                   palette: set<string>, calendarPages: seq<Page<CalendarEntry>>, createdId: string,
                   eventPages: seq<Page<Event>>, now: Instant): Outcome
    requires |tables| == |anchors|
    requires Finite(calendarPages) && Finite(eventPages)
  {
    match ScrapeCourses(anchors)
    case Err(f) => Crashed(f, false)
    case Ok(courses) =>
      match AssignmentsByCourse(courses, tables)
      case Err(f) => Crashed(f, false)
      case Ok(scraped) =>
        ScrapedCovers(courses, tables);
        SyncSpec(courses, PostFilter(scraped), settings, palette, calendarPages, createdId, eventPages, now)
  }

  /** The run once the courses and their assignments are scraped: check the
      colour settings, choose the calendar, list its events and build the
      batch. */
  function SyncSpec(courses: seq<Course>, byCourse: map<string, seq<Assignment>>,
                    settings: Option<ColorSettings>, palette: set<string>,
                    calendarPages: seq<Page<CalendarEntry>>, createdId: string,
                    eventPages: seq<Page<Event>>, now: Instant): Outcome
    requires Covers(byCourse, courses)
    requires Finite(calendarPages) && Finite(eventPages)
  {
    match CheckColors(settings, courses, palette)
    case Err(f) => Crashed(f, false)
    case Ok(ReportInvalid(keys)) => ColorsInvalid(keys)
    case Ok(WriteTemplate(t)) => TemplateWritten(t)
    case Ok(Proceed) =>
      var chosen := ChosenCalendar(FirstGradescopeId(Enumerated(calendarPages)), createdId);
      var p := Plan(chosen.0, settings.value, Enumerated(eventPages), now, Work(courses, byCourse));
      if p.fault.Some? then Crashed(p.fault.value, chosen.1) else Synced(chosen.0, chosen.1, p.requests)
  }

  /** The script, step by step. */
  method Run(anchors: seq<Element>, tables: seq<seq<Element>>, settings: Option<ColorSettings>,
             palette: set<string>, calendarPages: seq<Page<CalendarEntry>>, createdId: string,
             eventPages: seq<Page<Event>>, now: Instant)
    returns (outcome: Outcome)
    requires |tables| == |anchors|
    requires Finite(calendarPages) && Finite(eventPages)
    ensures outcome == RunSpec(anchors, tables, settings, palette, calendarPages, createdId, eventPages, now)
  {
    var courses := ScrapeCourses(anchors);
    if courses.Err? {
      return Crashed(courses.fault, false);
    }
    var scraped := AssignmentsByCourse(courses.value, tables);
    if scraped.Err? {
      return Crashed(scraped.fault, false);
    }
    var byCourse := PostFilter(scraped.value);
    ScrapedCovers(courses.value, tables);
    outcome := Synchronise(courses.value, byCourse, settings, palette, calendarPages, createdId, eventPages, now);
  }

  /** The rest of the script after scraping, step by step. */
  method Synchronise(courses: seq<Course>, byCourse: map<string, seq<Assignment>>,
                     settings: Option<ColorSettings>, palette: set<string>,
                     calendarPages: seq<Page<CalendarEntry>>, createdId: string,
                     eventPages: seq<Page<Event>>, now: Instant)
    returns (outcome: Outcome)
    requires Covers(byCourse, courses)
    requires Finite(calendarPages) && Finite(eventPages)
    ensures outcome == SyncSpec(courses, byCourse, settings, palette, calendarPages, createdId, eventPages, now)
  {
    var verdict := ValidateColorSettings(settings, courses, palette);
    if verdict.Err? {
      return Crashed(verdict.fault, false);
    }
    if verdict.value.ReportInvalid? {
      return ColorsInvalid(verdict.value.keys);
    }
    if verdict.value.WriteTemplate? {
      return TemplateWritten(verdict.value.template);
    }
    var found := FindGradescopeCalendarId(calendarPages);
    var chosen := ChosenCalendar(found, createdId);
    var events := EnumerateCalendarEvents(eventPages);
    var batch := new Batch();
    var fault := Reconcile(batch, chosen.0, settings.value, events, now, courses, byCourse);
    if fault.Some? {
      return Crashed(fault.value, chosen.1);
    }
    outcome := Synced(chosen.0, chosen.1, batch.requests);
  }

  /** A run whose scraping raises ends with that exception; otherwise it
      goes on with every scraped course in the dict. */
  lemma RunScrapes(anchors: seq<Element>, tables: seq<seq<Element>>, settings: Option<ColorSettings>,
                   palette: set<string>, calendarPages: seq<Page<CalendarEntry>>, createdId: string,
                   eventPages: seq<Page<Event>>, now: Instant)
    requires |tables| == |anchors|
    requires Finite(calendarPages) && Finite(eventPages)
    ensures ScrapeCourses(anchors).Err? ==>
              RunSpec(anchors, tables, settings, palette, calendarPages, createdId, eventPages, now)
              == Crashed(ScrapeCourses(anchors).fault, false)
    ensures ScrapeCourses(anchors).Ok? ==>
              var courses := ScrapeCourses(anchors).value;
              var scraped := AssignmentsByCourse(courses, tables);
              && (scraped.Err? ==>
                    RunSpec(anchors, tables, settings, palette, calendarPages, createdId, eventPages, now)
                    == Crashed(scraped.fault, false))
              && (scraped.Ok? ==>
                    && Covers(PostFilter(scraped.value), courses)
                    && RunSpec(anchors, tables, settings, palette, calendarPages, createdId, eventPages, now)
                       == SyncSpec(courses, PostFilter(scraped.value), settings, palette, calendarPages,
                                   createdId, eventPages, now))
  {
    if ScrapeCourses(anchors).Ok? && AssignmentsByCourse(ScrapeCourses(anchors).value, tables).Ok? {
      ScrapedCovers(ScrapeCourses(anchors).value, tables);
    }
  }

  /** Every request of a run goes to the chosen calendar; every insert
      creates an event that starts and ends at a due date after `now`; every
      patch sets the "Completed" colour. */
  lemma RunRequests(courses: seq<Course>, byCourse: map<string, seq<Assignment>>,
                    settings: Option<ColorSettings>, palette: set<string>,
                    calendarPages: seq<Page<CalendarEntry>>, createdId: string,
                    eventPages: seq<Page<Event>>, now: Instant, r: Request)
    requires Covers(byCourse, courses)
    requires Finite(calendarPages) && Finite(eventPages)
    requires SyncSpec(courses, byCourse, settings, palette, calendarPages, createdId, eventPages, now).Synced?
    requires r in SyncSpec(courses, byCourse, settings, palette, calendarPages, createdId, eventPages, now).requests
    ensures r.calendarId == SyncSpec(courses, byCourse, settings, palette, calendarPages, createdId, eventPages, now).calendarId
    ensures r.Insert? ==> r.body.start > now && r.body.end == r.body.start
    ensures r.Patch? ==> settings.Some? && "Completed" in settings.value && r.colorId == settings.value["Completed"]
  {
    var chosen := ChosenCalendar(FirstGradescopeId(Enumerated(calendarPages)), createdId);
    var events := Enumerated(eventPages);
    var items := Work(courses, byCourse);
    PlanRequestsFromSteps(chosen.0, settings.value, events, now, items, r);
    var k :| 0 <= k < |items| && Step(chosen.0, settings.value, events, now, items[k]) == Ok([r]);
    if r.Insert? {
      StepInsert(chosen.0, settings.value, events, now, items[k], r);
    } else {
      StepPatch(chosen.0, settings.value, events, now, items[k], r);
    }
  }

  /** A run calls the creation of a calendar exactly when no calendar of the
      script is listed or the first one has an empty id. */
  lemma RunCalendar(courses: seq<Course>, byCourse: map<string, seq<Assignment>>,
                    settings: Option<ColorSettings>, palette: set<string>,
                    calendarPages: seq<Page<CalendarEntry>>, createdId: string,
                    eventPages: seq<Page<Event>>, now: Instant)
    requires Covers(byCourse, courses)
    requires Finite(calendarPages) && Finite(eventPages)
    requires SyncSpec(courses, byCourse, settings, palette, calendarPages, createdId, eventPages, now).Synced?
    ensures var o := SyncSpec(courses, byCourse, settings, palette, calendarPages, createdId, eventPages, now);
      var found := FirstGradescopeId(Enumerated(calendarPages));
      && (o.createdCalendar <==> found == None || found == Some(""))
      && (o.createdCalendar ==> o.calendarId == createdId)
      && (!o.createdCalendar ==> found == Some(o.calendarId))
  {
  }

  /** A run that crashes after creating a calendar got past the colour check
      and found no usable calendar of the script; one that crashes without
      creating a calendar created none. */
  lemma RunCrashCalendar(courses: seq<Course>, byCourse: map<string, seq<Assignment>>,
                         settings: Option<ColorSettings>, palette: set<string>,
                         calendarPages: seq<Page<CalendarEntry>>, createdId: string,
                         eventPages: seq<Page<Event>>, now: Instant)
    requires Covers(byCourse, courses)
    requires Finite(calendarPages) && Finite(eventPages)
    requires SyncSpec(courses, byCourse, settings, palette, calendarPages, createdId, eventPages, now).Crashed?
    ensures var o := SyncSpec(courses, byCourse, settings, palette, calendarPages, createdId, eventPages, now);
      var found := FirstGradescopeId(Enumerated(calendarPages));
      o.createdCalendar <==>
        CheckColors(settings, courses, palette) == Ok(Proceed) && (found == None || found == Some(""))
  {
  }

  /** Without a settings file (or with an empty one) a run that scrapes
      successfully writes the template and stops. */
  lemma RunWithoutSettings(courses: seq<Course>, byCourse: map<string, seq<Assignment>>,
                           settings: Option<ColorSettings>, palette: set<string>,
                           calendarPages: seq<Page<CalendarEntry>>, createdId: string,
                           eventPages: seq<Page<Event>>, now: Instant)
    requires Covers(byCourse, courses)
    requires Finite(calendarPages) && Finite(eventPages)
    requires !HasSettings(settings)
    ensures SyncSpec(courses, byCourse, settings, palette, calendarPages, createdId, eventPages, now)
            == TemplateWritten(Template(courses))
  {
    TemplateOnlyWithoutSettings(settings, courses, palette);
  }

  /** A run that stops on invalid settings names at least one of them. */
  lemma RunReportsSomething(courses: seq<Course>, byCourse: map<string, seq<Assignment>>,
                            settings: Option<ColorSettings>, palette: set<string>,
                            calendarPages: seq<Page<CalendarEntry>>, createdId: string,
                            eventPages: seq<Page<Event>>, now: Instant)
    requires Covers(byCourse, courses)
    requires Finite(calendarPages) && Finite(eventPages)
    requires SyncSpec(courses, byCourse, settings, palette, calendarPages, createdId, eventPages, now).ColorsInvalid?
    ensures SyncSpec(courses, byCourse, settings, palette, calendarPages, createdId, eventPages, now).keys != []
  {
    TemplateOnlyWithoutSettings(settings, courses, palette);
    RejectedListsSomething(settings, courses, palette);
  }

  /** With the colour check switched on, settings without list or object
      values and a listing in which every event has a title and a timed start,
      a run whose pages scrape does not crash. */
  lemma RunValidatedDoesNotCrash(courses: seq<Course>, byCourse: map<string, seq<Assignment>>,
                                 settings: Option<ColorSettings>, palette: set<string>,
                                 calendarPages: seq<Page<CalendarEntry>>, createdId: string,
                                 eventPages: seq<Page<Event>>, now: Instant)
    requires Covers(byCourse, courses)
    requires Finite(calendarPages) && Finite(eventPages)
    requires ValidationRuns(settings)
    requires settings.Some? ==> forall key :: key in settings.value ==>
               !settings.value[key].Array? && !settings.value[key].Object?
    requires forall e :: e in Enumerated(eventPages) ==> e.summary.Some? && e.start.Some?
    ensures !SyncSpec(courses, byCourse, settings, palette, calendarPages, createdId, eventPages, now).Crashed?
  {
    var verdict := CheckColors(settings, courses, palette);
    if HasSettings(settings) {
      var cs := settings.value;
      if AllCourseColorsOk(courses, cs, palette).Err? {
        AllCourseColorsOkRaises(courses, cs, palette);
      }
      InvalidCoursesOk(courses, cs, palette);
    }
    assert verdict.Ok?;
    if verdict == Ok(Proceed) {
      var chosen := ChosenCalendar(FirstGradescopeId(Enumerated(calendarPages)), createdId);
      var events := Enumerated(eventPages);
      var items := Work(courses, byCourse);
      forall x | x in items
        ensures x.course in courses
      {
        WorkMembers(courses, byCourse, x);
      }
      NoColorFaultAfterValidation(settings, courses, palette, chosen.0, events, now, items);
      var p := Plan(chosen.0, settings.value, events, now, items);
      if p.fault.Some? {
        var k :| 0 <= k < |items| && FirstMatch(events, items[k].assignment) == Err(p.fault.value);
        FirstMatchSpec(events, items[k].assignment);
      }
    }
  }
}

=== FILE: sync.dfy ===
/** The body of gradescope-calendar.py after the colour check: choose the
    calendar, list its events once, walk every course's assignments and
    queue one insert or patch per assignment on a single batch, then send
    the batch. The requests are the run's only effect on the calendar. */
module Sync {
  import opened Base
  import opened Json
  import opened Html
  import opened Gradescope
  import opened Calendar
  import opened Events
  import opened Scrape
  import opened Colors

  /** One pass of the inner loop: a course and one of its assignments. */
  datatype Item = Item(course: Course, assignment: Assignment)

  /** The inner loop's passes for one course. */
  function ItemsOf(c: Course, assignments: seq<Assignment>): seq<Item> {
    seq(|assignments|, j requires 0 <= j < |assignments| => Item(c, assignments[j]))
  }

  /** Every course name has an entry in the per-course dict. */
  predicate Covers(byCourse: map<string, seq<Assignment>>, courses: seq<Course>) {
    forall k :: 0 <= k < |courses| ==> courses[k].name in byCourse
  }

  /** The order in which the nested loops visit assignments: course by
      course, and within a course in the order of its list. A name shared by
      two courses is visited once per course. */
  function Work(courses: seq<Course>, byCourse: map<string, seq<Assignment>>): seq<Item>
    requires Covers(byCourse, courses)
  {
    if courses == [] then []
    else
      var n := |courses| - 1;
      Work(courses[..n], byCourse) + ItemsOf(courses[n], byCourse[courses[n].name])
  }

  /** Each pass pairs a course with an assignment of that course's entry, and
      every such pair is visited. */
  lemma {:induction false} WorkMembers(courses: seq<Course>, byCourse: map<string, seq<Assignment>>, x: Item)
    requires Covers(byCourse, courses)
    ensures x in Work(courses, byCourse) <==>
            x.course in courses && x.assignment in byCourse[x.course.name]
  {
    if courses != [] {
      var n := |courses| - 1;
      WorkMembers(courses[..n], byCourse, x);
      assert courses == courses[..n] + [courses[n]];
      var tail := ItemsOf(courses[n], byCourse[courses[n].name]);
      assert x in tail <==> x.course == courses[n] && x.assignment in byCourse[courses[n].name] by {
        if x in tail {
          var j :| 0 <= j < |tail| && tail[j] == x;
        }
        if x.course == courses[n] && x.assignment in byCourse[courses[n].name] {
          var j :| 0 <= j < |byCourse[courses[n].name]| && byCourse[courses[n].name][j] == x.assignment;
          assert tail[j] == x;
        }
      }
    }
  }

  /** A run of consecutive courses is covered when all of them are. */
  lemma CoversSlice(byCourse: map<string, seq<Assignment>>, courses: seq<Course>, i: nat, j: nat)
    requires Covers(byCourse, courses) && i <= j <= |courses|
    ensures Covers(byCourse, courses[i..j])
  {
    forall k | 0 <= k < j - i ensures courses[i..j][k].name in byCourse {
      assert courses[i..j][k] == courses[i + k];
    }
  }

  /** The visiting order of two runs of courses is the order of the first
      followed by that of the second. */
  lemma {:induction false} WorkAppend(a: seq<Course>, b: seq<Course>, byCourse: map<string, seq<Assignment>>)
    requires Covers(byCourse, a + b)
    ensures Covers(byCourse, a) && Covers(byCourse, b)
    ensures Work(a + b, byCourse) == Work(a, byCourse) + Work(b, byCourse)
    decreases |b|
  {
    CoversSlice(byCourse, a + b, 0, |a|);
    CoversSlice(byCourse, a + b, |a|, |a + b|);
    assert (a + b)[0..|a|] == a && (a + b)[|a|..|a + b|] == b;
    if b == [] {
      assert a + b == a;
    } else {
      var m := |b| - 1;
      var ab := a + b;
      assert ab[..|ab| - 1] == a + b[..m] && ab[|ab| - 1] == b[m];
      CoversSlice(byCourse, ab, 0, |ab| - 1);
      WorkAppend(a, b[..m], byCourse);
      var last := ItemsOf(b[m], byCourse[b[m].name]);
      assert Work(ab, byCourse) == Work(a + b[..m], byCourse) + last;
      assert Work(b, byCourse) == Work(b[..m], byCourse) + last;
    }
  }

  /** The visiting order splits at any course boundary. */
  lemma WorkSplit(courses: seq<Course>, byCourse: map<string, seq<Assignment>>, i: nat)
    requires Covers(byCourse, courses) && i <= |courses|
    ensures Covers(byCourse, courses[..i]) && Covers(byCourse, courses[i..])
    ensures Work(courses, byCourse) == Work(courses[..i], byCourse) + Work(courses[i..], byCourse)
  {
    assert courses == courses[..i] + courses[i..];
    WorkAppend(courses[..i], courses[i..], byCourse);
  }

  /** Which branch the loop body takes: no event and a future due date
      creates one; a completed assignment whose event is not cancelled is
      recoloured; anything else is left alone. */
  datatype Decision = Create | Recolor(event: Event) | Leave

  function Decide(a: Assignment, found: Option<Event>, now: Instant): Decision {
    match found
    case None => if a.due.normal > now then Create else Leave
    case Some(e) => if a.completed && e.status != "cancelled" then Recolor(e) else Leave
  }

  /** The requests one pass queues, or the fault it raises. A recolouring
      patches only `colorId`, with the "Completed" colour. */
  function Step(calendarId: string, settings: ColorSettings, events: seq<Event>, now: Instant, x: Item)
    : (r: Result<seq<Request>>)
    ensures r.Ok? ==> |r.value| <= 1
  {
    match FirstMatch(events, x.assignment)
    case Err(f) => Err(f)
    case Ok(found) =>
      match Decide(x.assignment, found, now)
      case Leave => Ok([])
      case Create =>
        (match AssignmentEvent(x.course.name, x.course.url, x.assignment, settings)
         case Err(f) => Err(f)
         case Ok(body) => Ok([Insert(calendarId, body)]))
      case Recolor(e) =>
        if "Completed" in settings then Ok([Patch(calendarId, e.id, settings["Completed"])])
        else Err(MissingKey("Completed"))
  }

  /** An insert is queued only for an assignment with no event in the
      listing and a due date after `now`, and carries the event built for it. */
  lemma StepInsert(calendarId: string, settings: ColorSettings, events: seq<Event>, now: Instant, x: Item, r: Request)
    requires Step(calendarId, settings, events, now, x).Ok?
    requires r in Step(calendarId, settings, events, now, x).value && r.Insert?
    ensures FirstMatch(events, x.assignment) == Ok(None) && x.assignment.due.normal > now
    ensures r.calendarId == calendarId
    ensures AssignmentEvent(x.course.name, x.course.url, x.assignment, settings) == Ok(r.body)
  {
  }

  /** A patch is queued only for a completed assignment whose matched event
      is not cancelled, and sets that event's colour to the "Completed" one. */
  lemma StepPatch(calendarId: string, settings: ColorSettings, events: seq<Event>, now: Instant, x: Item, r: Request)
    requires Step(calendarId, settings, events, now, x).Ok?
    requires r in Step(calendarId, settings, events, now, x).value && r.Patch?
    ensures FirstMatch(events, x.assignment).Ok? && FirstMatch(events, x.assignment).value.Some?
    ensures var e := FirstMatch(events, x.assignment).value.value;
      && x.assignment.completed && e.status != "cancelled"
      && "Completed" in settings
      && r == Patch(calendarId, e.id, settings["Completed"])
  {
  }

  /** Nothing is queued exactly when the pass finds an event for an
      assignment that is not completed or whose event is cancelled, or finds
      none for an assignment already past due. */
  lemma StepLeaves(calendarId: string, settings: ColorSettings, events: seq<Event>, now: Instant, x: Item)
    ensures Step(calendarId, settings, events, now, x) == Ok([]) <==>
      && FirstMatch(events, x.assignment).Ok?
      && match FirstMatch(events, x.assignment).value
         case None => x.assignment.due.normal <= now
         case Some(e) => !x.assignment.completed || e.status == "cancelled"
  {
  }

  /** A pass raises only from the event search, from a missing colour key
      while building the event of an unmatched assignment due in the future,
      or from a missing "Completed" key while recolouring a matched event. */
  lemma StepFault(calendarId: string, settings: ColorSettings, events: seq<Event>, now: Instant, x: Item)
    requires Step(calendarId, settings, events, now, x).Err?
    ensures var f := Step(calendarId, settings, events, now, x).fault;
      || FirstMatch(events, x.assignment) == Err(f)
      || (&& FirstMatch(events, x.assignment) == Ok(None)
          && x.assignment.due.normal > now
          && ColorFor(settings, x.course.name, x.assignment.completed) == Err(f))
      || (&& FirstMatch(events, x.assignment).Ok?
          && FirstMatch(events, x.assignment).value.Some?
          && x.assignment.completed
          && FirstMatch(events, x.assignment).value.value.status != "cancelled"
          && f == MissingKey("Completed") && "Completed" !in settings)
  {
  }

  /** How far the loops got: the requests queued on the batch, and the fault
      that stopped them, if one did. */
  datatype Progress = Progress(requests: seq<Request>, fault: Option<Fault>)

  /** The nested loops over `items` (in visiting order): each pass adds its
      requests; the first fault stops the loops with the batch as it was. */
  function Plan(calendarId: string, settings: ColorSettings, events: seq<Event>, now: Instant, items: seq<Item>)
    : (p: Progress)
    ensures |p.requests| <= |items|
  {
    if items == [] then Progress([], None)
    else
      var n := |items| - 1;
      var p := Plan(calendarId, settings, events, now, items[..n]);
      if p.fault.Some? then p
      else match Step(calendarId, settings, events, now, items[n])
        case Err(f) => Progress(p.requests, Some(f))
        case Ok(rs) => Progress(p.requests + rs, None)
  }

  /** A pass after a fault does nothing. */
  lemma PlanFaultStays(calendarId: string, settings: ColorSettings, events: seq<Event>, now: Instant,
                       items: seq<Item>, x: Item)
    requires Plan(calendarId, settings, events, now, items).fault.Some?
    ensures Plan(calendarId, settings, events, now, items + [x]) == Plan(calendarId, settings, events, now, items)
  {
    assert (items + [x])[..|items|] == items;
  }

  /** After a fault nothing more happens. */
  lemma {:induction false} PlanStopsAtFault(calendarId: string, settings: ColorSettings, events: seq<Event>, now: Instant,
                                            items: seq<Item>, more: seq<Item>)
    requires Plan(calendarId, settings, events, now, items).fault.Some?
    ensures Plan(calendarId, settings, events, now, items + more) == Plan(calendarId, settings, events, now, items)
    decreases |more|
  {
    if more == [] {
      assert items + more == items;
    } else {
      var n := |more| - 1;
      var front := items + more[..n];
      assert items + more == front + [more[n]];
      PlanStopsAtFault(calendarId, settings, events, now, items, more[..n]);
      PlanFaultStays(calendarId, settings, events, now, front, more[n]);
    }
  }

  /** The loops run to the end exactly when no pass raises. */
  lemma {:induction false} PlanCompletes(calendarId: string, settings: ColorSettings, events: seq<Event>, now: Instant,
                                         items: seq<Item>)
    ensures Plan(calendarId, settings, events, now, items).fault.None? <==>
            forall k :: 0 <= k < |items| ==> Step(calendarId, settings, events, now, items[k]).Ok?
  {
    if items != [] {
      var n := |items| - 1;
      PlanCompletes(calendarId, settings, events, now, items[..n]);
      assert forall k :: 0 <= k < n ==> items[..n][k] == items[k];
    }
  }

  /** A fault that stops the loops is the fault of some pass. */
  lemma {:induction false} PlanFaultFromStep(calendarId: string, settings: ColorSettings, events: seq<Event>, now: Instant,
                                             items: seq<Item>)
    requires Plan(calendarId, settings, events, now, items).fault.Some?
    ensures var f := Plan(calendarId, settings, events, now, items).fault.value;
      exists k :: 0 <= k < |items| && Step(calendarId, settings, events, now, items[k]) == Err(f)
  {
    var n := |items| - 1;
    var p := Plan(calendarId, settings, events, now, items[..n]);
    if p.fault.Some? {
      PlanFaultFromStep(calendarId, settings, events, now, items[..n]);
      var k :| 0 <= k < n && Step(calendarId, settings, events, now, items[..n][k]) == Err(p.fault.value);
      assert items[..n][k] == items[k];
    }
  }

  /** Every queued request is the whole output of some pass. */
  lemma {:induction false} PlanRequestsFromSteps(calendarId: string, settings: ColorSettings, events: seq<Event>, now: Instant,
                                                 items: seq<Item>, r: Request)
    requires r in Plan(calendarId, settings, events, now, items).requests
    ensures exists k :: 0 <= k < |items| && Step(calendarId, settings, events, now, items[k]) == Ok([r])
  {
    var n := |items| - 1;
    var p := Plan(calendarId, settings, events, now, items[..n]);
    if r in p.requests {
      PlanRequestsFromSteps(calendarId, settings, events, now, items[..n], r);
      var k :| 0 <= k < n && Step(calendarId, settings, events, now, items[..n][k]) == Ok([r]);
      assert items[..n][k] == items[k];
    } else {
      var s := Step(calendarId, settings, events, now, items[n]);
      assert s.Ok? && r in s.value;
      assert s.value == [r];
    }
  }

  /** The event listing is a snapshot taken before the loops: two passes for
      the same assignment with no event both queue an insert. */
  lemma RepeatedAssignmentCreatedTwice(calendarId: string, settings: ColorSettings, events: seq<Event>, now: Instant,
                                       x: Item, body: EventBody)
    requires Step(calendarId, settings, events, now, x) == Ok([Insert(calendarId, body)])
    ensures Plan(calendarId, settings, events, now, [x, x]).requests == [Insert(calendarId, body), Insert(calendarId, body)]
  {
    assert [x][..0] == [];
    assert Plan(calendarId, settings, events, now, [x]) == Progress([Insert(calendarId, body)], None);
    assert [x, x][..1] == [x];
  }

  /** How the calendar lists an event created from `body` under `id` on a
      later run. */
  function Listed(id: string, body: EventBody): Event {
    Event(id, Some(body.summary), Some(body.start), "confirmed", Some(body.colorId))
  }

  /** Events that all fail the test can be skipped. */
  lemma {:induction false} FirstMatchSkips(skipped: seq<Event>, rest: seq<Event>, a: Assignment)
    requires forall k :: 0 <= k < |skipped| ==> MatchTest(skipped[k], a) == Ok(false)
    ensures FirstMatch(skipped + rest, a) == FirstMatch(rest, a)
  {
    if skipped != [] {
      var all := skipped + rest;
      assert all[0] == skipped[0] && all[1..] == skipped[1..] + rest;
      FirstMatchSkips(skipped[1..], rest, a);
    } else {
      assert skipped + rest == rest;
    }
  }

  /** A created event is found on the next run, wherever the listing puts
      it, so the assignment is not created twice: the next pass leaves it
      alone, or re-sends the "Completed" colour if it is completed. */
  lemma {:induction false} CreatedEventFoundNextRun(calendarId: string, settings: ColorSettings, events: seq<Event>,
                                                    now: Instant, x: Item, body: EventBody, id: string, i: nat)
    requires Step(calendarId, settings, events, now, x) == Ok([Insert(calendarId, body)])
    requires i <= |events|
    ensures x.assignment.completed ==> "Completed" in settings
    ensures var after := events[..i] + [Listed(id, body)] + events[i..];
      && FirstMatch(after, x.assignment) == Ok(Some(Listed(id, body)))
      && Step(calendarId, settings, after, now, x)
         == if x.assignment.completed then Ok([Patch(calendarId, id, settings["Completed"])]) else Ok([])
  {
    var a := x.assignment;
    var created := Listed(id, body);
    assert FirstMatch(events, a) == Ok(None);
    FirstMatchSpec(events, a);
    assert forall k :: 0 <= k < i ==> events[..i][k] == events[k];
    FirstMatchSkips(events[..i], [created] + events[i..], a);
    assert events[..i] + [created] + events[i..] == events[..i] + ([created] + events[i..]);
    assert MatchTest(created, a) == Ok(true);
  }

  /** `event` after a patch of event `id` to colour `c`. */
  function WithColor(e: Event, id: string, c: Value): Event {
    if e.id == id then e.(colorId := Some(c)) else e
  }

  /** The listing after a patch of event `id` to colour `c`. */
  function Recolored(events: seq<Event>, id: string, c: Value): seq<Event> {
    seq(|events|, k requires 0 <= k < |events| => WithColor(events[k], id, c))
  }

  /** A recolouring does not change which event an assignment matches. */
  lemma {:induction false} FirstMatchRecolored(events: seq<Event>, a: Assignment, id: string, c: Value)
    ensures FirstMatch(Recolored(events, id, c), a)
            == match FirstMatch(events, a)
               case Ok(Some(e)) => Ok(Some(WithColor(e, id, c)))
               case other => other
  {
    if events != [] {
      var after := Recolored(events, id, c);
      assert after[0] == WithColor(events[0], id, c);
      assert after[1..] == Recolored(events[1..], id, c);
      FirstMatchRecolored(events[1..], a, id, c);
    }
  }

  /** A recolouring changes nothing the next run decides on: the same pass
      queues the same requests again, so a completed assignment's patch is
      re-sent on every run. */
  lemma StepAfterPatch(calendarId: string, settings: ColorSettings, events: seq<Event>, now: Instant,
                       x: Item, id: string, c: Value)
    ensures Step(calendarId, settings, Recolored(events, id, c), now, x) == Step(calendarId, settings, events, now, x)
  {
    FirstMatchRecolored(events, x.assignment, id, c);
  }

  /** With settings that passed the colour check, every colour the loops look
      up is present: a run over these courses stops only on a listed event
      that lacks a title or a start. */
  lemma NoColorFaultAfterValidation(settings: Option<ColorSettings>, courses: seq<Course>, palette: set<string>,
                                    calendarId: string, events: seq<Event>, now: Instant, items: seq<Item>)
    requires ValidationRuns(settings) && CheckColors(settings, courses, palette) == Ok(Proceed)
    requires forall x :: x in items ==> x.course in courses
    ensures HasSettings(settings)
    ensures var p := Plan(calendarId, settings.value, events, now, items);
      p.fault.Some? ==> exists k :: 0 <= k < |items| && FirstMatch(events, items[k].assignment) == Err(p.fault.value)
  {
    AcceptedSettingsHaveColors(settings, courses, palette);
    var cs := settings.value;
    var p := Plan(calendarId, cs, events, now, items);
    if p.fault.Some? {
      PlanFaultFromStep(calendarId, cs, events, now, items);
      var k :| 0 <= k < |items| && Step(calendarId, cs, events, now, items[k]) == Err(p.fault.value);
      StepFault(calendarId, cs, events, now, items[k]);
      assert items[k] in items;
    }
  }

  /** The inner loop's passes split at any assignment. */
  lemma ItemsOfSplit(c: Course, all: seq<Assignment>, j: nat)
    requires j <= |all|
    ensures ItemsOf(c, all) == ItemsOf(c, all[..j]) + ItemsOf(c, all[j..])
  {
  }

  /** One pass of the loops: look the assignment up in the listing, then
      queue an insert for a missing event due in the future, or a patch for a
      completed assignment whose event is not cancelled. */
  method ReconcileOne(batch: Batch, calendarId: string, settings: ColorSettings, events: seq<Event>, now: Instant,
                      x: Item)
    returns (fault: Option<Fault>)
    modifies batch
    ensures match Step(calendarId, settings, events, now, x)
            case Err(f) => fault == Some(f) && batch.requests == old(batch.requests)
            case Ok(rs) => fault.None? && batch.requests == old(batch.requests) + rs
  {
    var a := x.assignment;
    var found := GetAssignmentInCalendar(a, events);
    if found.Err? {
      return Some(found.fault);
    }
    fault := None;
    if found.value.None? {
      if a.due.normal > now {
        fault := CreateAssignmentEvent(batch, calendarId, x.course.name, x.course.url, a, settings);
      }
    } else if a.completed && found.value.value.status != "cancelled" {
      if "Completed" !in settings {
        return Some(MissingKey("Completed"));
      }
      batch.Add(Patch(calendarId, found.value.value.id, settings["Completed"]));
    }
  }

  /** One more pass after a run of passes that raised nothing. */
  lemma PlanSnoc(calendarId: string, settings: ColorSettings, events: seq<Event>, now: Instant,
                 items: seq<Item>, x: Item)
    requires Plan(calendarId, settings, events, now, items).fault.None?
    ensures var p := Plan(calendarId, settings, events, now, items);
      Plan(calendarId, settings, events, now, items + [x])
      == match Step(calendarId, settings, events, now, x)
         case Err(f) => Progress(p.requests, Some(f))
         case Ok(rs) => Progress(p.requests + rs, None)
  {
    assert (items + [x])[..|items|] == items;
  }

  /** One pass, continuing a run that has visited `done` without a fault and
      queued `start` plus those passes' requests. */
  method ReconcileNext(batch: Batch, calendarId: string, settings: ColorSettings, events: seq<Event>, now: Instant,
                       x: Item, ghost done: seq<Item>, ghost start: seq<Request>)
    returns (fault: Option<Fault>)
    requires Plan(calendarId, settings, events, now, done).fault.None?
    requires batch.requests == start + Plan(calendarId, settings, events, now, done).requests
    modifies batch
    ensures var p := Plan(calendarId, settings, events, now, done + [x]);
      fault == p.fault && batch.requests == start + p.requests
  {
    PlanSnoc(calendarId, settings, events, now, done, x);
    fault := ReconcileOne(batch, calendarId, settings, events, now, x);
  }

  /** A fault part-way through a course's passes is the fault of all of them. */
  lemma FaultEndsCourse(calendarId: string, settings: ColorSettings, events: seq<Event>, now: Instant,
                        done: seq<Item>, c: Course, assignments: seq<Assignment>, j: nat)
    requires j <= |assignments|
    requires Plan(calendarId, settings, events, now, done + ItemsOf(c, assignments[..j])).fault.Some?
    ensures Plan(calendarId, settings, events, now, done + ItemsOf(c, assignments))
            == Plan(calendarId, settings, events, now, done + ItemsOf(c, assignments[..j]))
  {
    var front, back := ItemsOf(c, assignments[..j]), ItemsOf(c, assignments[j..]);
    ItemsOfSplit(c, assignments, j);
    assert done + (front + back) == (done + front) + back;
    PlanStopsAtFault(calendarId, settings, events, now, done + front, back);
  }

  /** The inner loop for course `c`, continuing a run that has visited
      `done` without a fault and queued `start` plus those passes' requests. */
  method ReconcileCourse(batch: Batch, calendarId: string, settings: ColorSettings, events: seq<Event>, now: Instant,
                         c: Course, assignments: seq<Assignment>, ghost done: seq<Item>, ghost start: seq<Request>)
    returns (fault: Option<Fault>)
    requires Plan(calendarId, settings, events, now, done).fault.None?
    requires batch.requests == start + Plan(calendarId, settings, events, now, done).requests
    modifies batch
    ensures var p := Plan(calendarId, settings, events, now, done + ItemsOf(c, assignments));
      fault == p.fault && batch.requests == start + p.requests
  {
    fault := None;
    assert done + ItemsOf(c, assignments[..0]) == done;
    for j := 0 to |assignments|
      invariant var p := Plan(calendarId, settings, events, now, done + ItemsOf(c, assignments[..j]));
        p.fault.None? && batch.requests == start + p.requests
    {
      var x := Item(c, assignments[j]);
      ghost var before := done + ItemsOf(c, assignments[..j]);
      assert done + ItemsOf(c, assignments[..j + 1]) == before + [x] by {
        assert ItemsOf(c, assignments[..j + 1]) == ItemsOf(c, assignments[..j]) + [x];
      }
      fault := ReconcileNext(batch, calendarId, settings, events, now, x, before, start);
      if fault.Some? {
        FaultEndsCourse(calendarId, settings, events, now, done, c, assignments, j + 1);
        return;
      }
    }
    assert assignments[..|assignments|] == assignments;
    fault := None;
  }

  /** The loops of the script: for every course, for every assignment of its
      entry, look the assignment up in the listing and queue an insert or a
      patch on the batch. A fault leaves the requests queued so far. */
  method Reconcile(batch: Batch, calendarId: string, settings: ColorSettings, events: seq<Event>, now: Instant,
                   courses: seq<Course>, byCourse: map<string, seq<Assignment>>)
    returns (fault: Option<Fault>)
    requires Covers(byCourse, courses)
    modifies batch
    ensures var p := Plan(calendarId, settings, events, now, Work(courses, byCourse));
      fault == p.fault && batch.requests == old(batch.requests) + p.requests
  {
    ghost var start := batch.requests;
    assert courses[..0] == [];
    for i := 0 to |courses|
      invariant var p := Plan(calendarId, settings, events, now, Work(courses[..i], byCourse));
        p.fault.None? && batch.requests == start + p.requests
    {
      var c := courses[i];
      ghost var done := Work(courses[..i], byCourse);
      assert courses[..i + 1][..i] == courses[..i] && courses[..i + 1][i] == c;
      assert Work(courses[..i + 1], byCourse) == done + ItemsOf(c, byCourse[c.name]);
      fault := ReconcileCourse(batch, calendarId, settings, events, now, c, byCourse[c.name], done, start);
      if fault.Some? {
        WorkSplit(courses, byCourse, i + 1);
        PlanStopsAtFault(calendarId, settings, events, now, Work(courses[..i + 1], byCourse), Work(courses[i + 1..], byCourse));
        return;
      }
    }
    assert courses[..|courses|] == courses;
    fault := None;
  }
}

=== FILE: text.dfy ===
/** The few Python string operations the script relies on. */
module Text {

  /** `str.isspace()` for one character: the characters Python's `str.strip()`
      removes when called without arguments. */
  predicate IsSpace(c: char) {
    var n := c as int;
    (9 <= n <= 13) || (28 <= n <= 32) || n == 0x85 || n == 0xA0 || n == 0x1680
    || (0x2000 <= n <= 0x200A) || n == 0x2028 || n == 0x2029 || n == 0x202F
    || n == 0x205F || n == 0x3000
  }

  /** `s.lstrip()`: drops leading whitespace. */
  function StripLeft(s: string): (r: string)
    ensures |r| <= |s|
    ensures forall k :: 0 <= k < |s| - |r| ==> IsSpace(s[k])
    ensures r == [] || !IsSpace(r[0])
  {
    if |s| > 0 && IsSpace(s[0]) then StripLeft(s[1..]) else s
  }

  /** What `lstrip` keeps is a suffix of its argument. */
  lemma {:induction false} StripLeftIsSuffix(s: string)
    ensures StripLeft(s) == s[|s| - |StripLeft(s)|..]
    decreases |s|
  {
    if |s| > 0 && IsSpace(s[0]) {
      StripLeftIsSuffix(s[1..]);
    }
  }

  /** `s.rstrip()`: drops trailing whitespace. */
  function StripRight(s: string): (r: string)
    ensures |r| <= |s|
    ensures forall k :: |r| <= k < |s| ==> IsSpace(s[k])
    ensures r == [] || !IsSpace(r[|r| - 1])
  {
    if |s| > 0 && IsSpace(s[|s| - 1]) then StripRight(s[..|s| - 1]) else s
  }

  /** What `rstrip` keeps is a prefix of its argument. */
  lemma {:induction false} StripRightIsPrefix(s: string)
    ensures StripRight(s) == s[..|StripRight(s)|]
    decreases |s|
  {
    if |s| > 0 && IsSpace(s[|s| - 1]) {
      StripRightIsPrefix(s[..|s| - 1]);
    }
  }

  /** True when `s` neither starts nor ends with whitespace. */
  predicate Trimmed(s: string) {
    s == [] || (!IsSpace(s[0]) && !IsSpace(s[|s| - 1]))
  }

  /** `r` is the slice `s[i..j]`, and `s` holds only whitespace before `i`
      and from `j` on. */
  predicate SpaceFramed(s: string, r: string, i: int, j: int) {
    && 0 <= i <= j <= |s| && r == s[i..j]
    && (forall k :: 0 <= k < i ==> IsSpace(s[k]))
    && (forall k :: j <= k < |s| ==> IsSpace(s[k]))
  }

  /** Stripping the left end and then the right end leaves a slice of `s`
      with only whitespace outside it. */
  lemma StripBothEnds(s: string)
    ensures exists i, j :: SpaceFramed(s, StripRight(StripLeft(s)), i, j)
  {
    var l := StripLeft(s);
    var r := StripRight(l);
    StripLeftIsSuffix(s);
    StripRightIsPrefix(l);
    var i, j := |s| - |l|, |s| - |l| + |r|;
    FramedSlice(s, i, j, IsSpace);
    assert SpaceFramed(s, r, i, j);
  }

  /** A prefix of a suffix is a slice; an element of `s` outside the slice
      is an element of the part of the suffix or of `s` that the slice
      leaves out. */
  lemma FramedSlice<T>(s: seq<T>, i: nat, j: nat, p: T -> bool)
    requires i <= j <= |s|
    requires forall k :: 0 <= k < i ==> p(s[k])
    requires forall k :: j - i <= k < |s| - i ==> p(s[i..][k])
    ensures s[i..][..j - i] == s[i..j]
    ensures forall k :: j <= k < |s| ==> p(s[k])
  {
    forall k | j <= k < |s|
      ensures p(s[k])
    {
      assert s[k] == s[i..][k - i];
    }
  }

  /** `s.strip()`: the slice of `s` left once the whitespace at both ends
      is dropped; the result is trimmed, and a trimmed string is left alone. */
  function Strip(s: string): (r: string)
    ensures exists i, j :: SpaceFramed(s, r, i, j)
    ensures Trimmed(r)
    ensures |r| <= |s|
    ensures Trimmed(s) ==> r == s
  {
    var l := StripLeft(s);
    StripRightIsPrefix(l);
    StripBothEnds(s);
    StripRight(l)
  }

  /** `s.startswith(p)`. */
  predicate StartsWith(s: string, p: string) {
    p <= s
  }

  /** `sub` occurs in `s` starting at index `i`. */
  predicate OccursAt(s: string, sub: string, i: int) {
    0 <= i && i + |sub| <= |s| && s[i..i + |sub|] == sub
  }

  /** Python's `sub in s`, searched left to right. */
  function Contains(s: string, sub: string): (r: bool)
    decreases |s|
  {
    sub <= s || (|s| > 0 && Contains(s[1..], sub))
  }

  /** A prefix is an occurrence at index 0. */
  lemma PrefixOccurs(s: string, sub: string)
    ensures sub <= s <==> OccursAt(s, sub, 0)
  {
    if OccursAt(s, sub, 0) {
      assert s[..|sub|] == sub;
    }
    if sub <= s {
      assert s[0..|sub|] == sub;
    }
  }

  /** An occurrence in the tail is an occurrence one index further on. */
  lemma OccursShift(s: string, sub: string, i: int)
    requires |s| > 0 && 0 <= i
    ensures OccursAt(s[1..], sub, i) <==> OccursAt(s, sub, i + 1)
  {
    if i + 1 + |sub| <= |s| {
      assert s[1..][i..i + |sub|] == s[i + 1..i + 1 + |sub|];
    }
  }

  /** The left-to-right search finds `sub` exactly when it occurs at some index. */
  lemma {:induction false} ContainsIff(s: string, sub: string)
    ensures Contains(s, sub) <==> exists i :: OccursAt(s, sub, i)
    decreases |s|
  {
    PrefixOccurs(s, sub);
    if sub <= s {
    } else if |s| > 0 {
      ContainsIff(s[1..], sub);
      if Contains(s[1..], sub) {
        var i :| OccursAt(s[1..], sub, i);
        OccursShift(s, sub, i);
      } else {
        forall i | 0 < i ensures !OccursAt(s, sub, i) {
          OccursShift(s, sub, i - 1);
        }
      }
    }
  }
}

=== FILE: timestamp.dfy ===
/** The timestamp layout Gradescope puts in the `datetime` attribute of its
    `<time>` elements, `%Y-%m-%d %H:%M:%S %z` (for example
    `2024-03-01 23:59:00 -0500`), and the instant such a timestamp denotes. */
module Timestamp {
  import opened Base

  /** The fields of a parsed timestamp. The UTC offset is kept as written:
      a sign (`west` for `-`) and its hours and minutes. */
  datatype Stamp = Stamp(year: int, month: int, day: int,
                         hour: int, minute: int, second: int,
                         west: bool, offsetHours: int, offsetMinutes: int)

  predicate IsLeap(y: int) {
    y % 4 == 0 && (y % 100 != 0 || y % 400 == 0)
  }

  function DaysInMonth(y: int, m: int): (n: int)
    requires 1 <= m <= 12
    ensures 28 <= n <= 31
  {
    if m == 2 then (if IsLeap(y) then 29 else 28)
    else if m == 4 || m == 6 || m == 9 || m == 11 then 30
    else 31
  }

  /** The values Python's `datetime` and `timezone` constructors accept:
      years 1 to 9999, a day that exists in its month, seconds up to 59
      and an offset strictly inside one day. */
  predicate Valid(st: Stamp) {
    && 1 <= st.year <= 9999
    && 1 <= st.month <= 12
    && 1 <= st.day <= DaysInMonth(st.year, st.month)
    && 0 <= st.hour <= 23
    && 0 <= st.minute <= 59
    && 0 <= st.second <= 59
    && 0 <= st.offsetHours <= 23
    && 0 <= st.offsetMinutes <= 59
  }

  predicate IsDigit(c: char) {
    '0' <= c <= '9'
  }

  function DigitValue(c: char): (n: int)
    requires IsDigit(c)
    ensures 0 <= n <= 9
  {
    c as int - '0' as int
  }

  function DigitChar(n: int): (c: char)
    requires 0 <= n <= 9
    ensures IsDigit(c) && DigitValue(c) == n
  {
    ('0' as int + n) as char
  }

  /** The decimal value of the `n` digits of `s` starting at index `i`. */
  function Number(s: string, i: nat, n: nat): (v: int)
    requires i + n <= |s|
    requires forall k :: i <= k < i + n ==> IsDigit(s[k])
    ensures v >= 0
  {
    if n == 0 then 0 else Number(s, i, n - 1) * 10 + DigitValue(s[i + n - 1])
  }

  /** Indices of the 25-character layout that hold digits. */
  predicate DigitSlot(k: int) {
    0 <= k < 25 && k != 4 && k != 7 && k != 10 && k != 13 && k != 16 && k != 19 && k != 20
  }

  /** The layout without its field values: separators in place, digits
      everywhere else. */
  predicate WellShaped(s: string) {
    && |s| == 25
    && s[4] == '-' && s[7] == '-' && s[10] == ' '
    && s[13] == ':' && s[16] == ':' && s[19] == ' '
    && (s[20] == '+' || s[20] == '-')
    && forall k | 0 <= k < 25 :: DigitSlot(k) ==> IsDigit(s[k])
  }

  /** `datetime.strptime(s, "%Y-%m-%d %H:%M:%S %z")` for the zero-padded
      spelling of the layout: `None` where Python raises `ValueError`. */
  function Parse(s: string): (r: Option<Stamp>)
    ensures r.Some? ==> Valid(r.value)
  {
    if !WellShaped(s) then None
    else
      var st := Stamp(Number(s, 0, 4), Number(s, 5, 2), Number(s, 8, 2),
                      Number(s, 11, 2), Number(s, 14, 2), Number(s, 17, 2),
                      s[20] == '-', Number(s, 21, 2), Number(s, 23, 2));
      if Valid(st) then Some(st) else None
  }

  /** The zero-padded spelling of a timestamp in the same layout. */
  function Format(st: Stamp): (s: string)
    requires Valid(st)
    ensures WellShaped(s)
  {
    [ DigitChar(st.year / 1000), DigitChar(st.year / 100 % 10),
      DigitChar(st.year / 10 % 10), DigitChar(st.year % 10), '-',
      DigitChar(st.month / 10), DigitChar(st.month % 10), '-',
      DigitChar(st.day / 10), DigitChar(st.day % 10), ' ',
      DigitChar(st.hour / 10), DigitChar(st.hour % 10), ':',
      DigitChar(st.minute / 10), DigitChar(st.minute % 10), ':',
      DigitChar(st.second / 10), DigitChar(st.second % 10), ' ',
      if st.west then '-' else '+',
      DigitChar(st.offsetHours / 10), DigitChar(st.offsetHours % 10),
      DigitChar(st.offsetMinutes / 10), DigitChar(st.offsetMinutes % 10) ]
  }

  lemma TwoDigits(s: string, i: nat)
    requires i + 2 <= |s| && IsDigit(s[i]) && IsDigit(s[i + 1])
    ensures Number(s, i, 2) == 10 * DigitValue(s[i]) + DigitValue(s[i + 1])
    ensures Number(s, i, 2) / 10 == DigitValue(s[i])
    ensures Number(s, i, 2) % 10 == DigitValue(s[i + 1])
  {
    assert Number(s, i, 1) == DigitValue(s[i]);
  }

  lemma FourDigits(s: string, i: nat)
    requires i + 4 <= |s|
    requires IsDigit(s[i]) && IsDigit(s[i + 1]) && IsDigit(s[i + 2]) && IsDigit(s[i + 3])
    ensures var n := Number(s, i, 4);
      && n / 1000 == DigitValue(s[i])
      && n / 100 % 10 == DigitValue(s[i + 1])
      && n / 10 % 10 == DigitValue(s[i + 2])
      && n % 10 == DigitValue(s[i + 3])
  {
    assert Number(s, i, 2) == 10 * DigitValue(s[i]) + DigitValue(s[i + 1]) by { TwoDigits(s, i); }
    var n := Number(s, i, 4);
    var a, b, c, d := DigitValue(s[i]), DigitValue(s[i + 1]), DigitValue(s[i + 2]), DigitValue(s[i + 3]);
    assert Number(s, i, 3) == Number(s, i, 2) * 10 + c;
    assert n == Number(s, i, 3) * 10 + d;
    QuadDigits(a, b, c, d);
  }

  /** The decimal digits of a four-digit number. */
  lemma QuadDigits(a: int, b: int, c: int, d: int)
    requires 0 <= a <= 9 && 0 <= b <= 9 && 0 <= c <= 9 && 0 <= d <= 9
    ensures var n := ((10 * a + b) * 10 + c) * 10 + d;
      && n / 1000 == a && n / 100 % 10 == b && n / 10 % 10 == c && n % 10 == d
  {
    var n := ((10 * a + b) * 10 + c) * 10 + d;
    assert n == 1000 * a + 100 * b + 10 * c + d;
    assert n / 10 == 100 * a + 10 * b + c;
    assert n / 100 == 10 * a + b;
  }

  /** Two digit characters spelling `n` read back as `n`. */
  lemma PairValue(s: string, i: nat, n: int)
    requires 0 <= n <= 99 && i + 2 <= |s|
    requires s[i] == DigitChar(n / 10) && s[i + 1] == DigitChar(n % 10)
    ensures Number(s, i, 2) == n
  {
    TwoDigits(s, i);
  }

  /** A number below 10000 is the sum of its four decimal digits' place values. */
  lemma DecimalPlaces(n: int)
    requires 0 <= n <= 9999
    ensures n == 1000 * (n / 1000) + 100 * (n / 100 % 10) + 10 * (n / 10 % 10) + n % 10
  {
    var q1 := n / 10;
    var q2 := q1 / 10;
    var q3 := q2 / 10;
    assert q2 == n / 100;
    assert q3 == n / 1000;
  }

  /** Four digit characters spelling `n` read back as `n`. */
  lemma QuadValue(s: string, i: nat, n: int)
    requires 0 <= n <= 9999 && i + 4 <= |s|
    requires s[i] == DigitChar(n / 1000) && s[i + 1] == DigitChar(n / 100 % 10)
    requires s[i + 2] == DigitChar(n / 10 % 10) && s[i + 3] == DigitChar(n % 10)
    ensures Number(s, i, 4) == n
  {
    assert Number(s, i, 2) == 10 * DigitValue(s[i]) + DigitValue(s[i + 1]) by { TwoDigits(s, i); }
    assert Number(s, i, 3) == Number(s, i, 2) * 10 + DigitValue(s[i + 2]);
    assert Number(s, i, 4) == 1000 * (n / 1000) + 100 * (n / 100 % 10) + 10 * (n / 10 % 10) + n % 10;
    DecimalPlaces(n);
  }

  /** Reading back the zero-padded spelling gives the same fields. */
  lemma {:induction false} ParseFormat(st: Stamp)
    requires Valid(st)
    ensures Parse(Format(st)) == Some(st)
  {
    var s := Format(st);
    QuadValue(s, 0, st.year);
    PairValue(s, 5, st.month);
    PairValue(s, 8, st.day);
    PairValue(s, 11, st.hour);
    PairValue(s, 14, st.minute);
    PairValue(s, 17, st.second);
    PairValue(s, 21, st.offsetHours);
    PairValue(s, 23, st.offsetMinutes);
  }

  /** A digit is the character of its own value. */
  lemma DigitCharValue(c: char)
    requires IsDigit(c)
    ensures DigitChar(DigitValue(c)) == c
  {
  }

  /** The fields of an accepted string are the numbers its digits spell. */
  lemma ParseFields(s: string)
    requires Parse(s).Some?
    ensures WellShaped(s)
    ensures var st := Parse(s).value;
      && st.year == Number(s, 0, 4) && st.month == Number(s, 5, 2) && st.day == Number(s, 8, 2)
      && st.hour == Number(s, 11, 2) && st.minute == Number(s, 14, 2) && st.second == Number(s, 17, 2)
      && st.west == (s[20] == '-') && st.offsetHours == Number(s, 21, 2) && st.offsetMinutes == Number(s, 23, 2)
  {
  }

  /** The two digits of a field at `i` are spelled as `Format` spells them,
      given the field's value `n`. */
  lemma FormatParsePair(s: string, f: string, i: nat, n: int)
    requires |s| == |f| && i + 2 <= |s| && 0 <= n <= 99
    requires IsDigit(s[i]) && IsDigit(s[i + 1]) && Number(s, i, 2) == n
    requires f[i] == DigitChar(n / 10) && f[i + 1] == DigitChar(n % 10)
    ensures f[i] == s[i] && f[i + 1] == s[i + 1]
  {
    TwoDigits(s, i);
    DigitCharValue(s[i]);
    DigitCharValue(s[i + 1]);
  }

  /** Two strings of the layout's length that agree at every index are equal. */
  lemma SameSpelling(f: string, s: string)
    requires |f| == 25 && |s| == 25
    requires f[0] == s[0] && f[1] == s[1] && f[2] == s[2] && f[3] == s[3] && f[4] == s[4]
    requires f[5] == s[5] && f[6] == s[6] && f[7] == s[7] && f[8] == s[8] && f[9] == s[9]
    requires f[10] == s[10] && f[11] == s[11] && f[12] == s[12] && f[13] == s[13] && f[14] == s[14]
    requires f[15] == s[15] && f[16] == s[16] && f[17] == s[17] && f[18] == s[18] && f[19] == s[19]
    requires f[20] == s[20] && f[21] == s[21] && f[22] == s[22] && f[23] == s[23] && f[24] == s[24]
    ensures f == s
  {
    assert forall k | 0 <= k < 25 :: f[k] == s[k];
  }

  /** A timestamp the parser accepts is the zero-padded spelling of its fields,
      so the parser accepts exactly the spellings `Format` produces. */
  lemma FormatParse(s: string)
    requires Parse(s).Some?
    ensures Format(Parse(s).value) == s
  {
    var st := Parse(s).value;
    var f := Format(st);
    ParseFields(s);
    FourDigits(s, 0);
    DigitCharValue(s[0]);
    DigitCharValue(s[1]);
    DigitCharValue(s[2]);
    DigitCharValue(s[3]);
    FormatParsePair(s, f, 5, st.month);
    FormatParsePair(s, f, 8, st.day);
    FormatParsePair(s, f, 11, st.hour);
    FormatParsePair(s, f, 14, st.minute);
    FormatParsePair(s, f, 17, st.second);
    FormatParsePair(s, f, 21, st.offsetHours);
    FormatParsePair(s, f, 23, st.offsetMinutes);
    SameSpelling(f, s);
  }

  /** A timestamp dated the 29th of February parses exactly when its year is
      a leap year (and its year, clock and offset fields are in range). */
  lemma ParseLeapDay(s: string)
    requires WellShaped(s) && s[5..10] == "02-29"
    ensures Parse(s).Some? <==>
      && IsLeap(Number(s, 0, 4)) && Number(s, 0, 4) >= 1
      && Number(s, 11, 2) <= 23 && Number(s, 14, 2) <= 59 && Number(s, 17, 2) <= 59
      && Number(s, 21, 2) <= 23 && Number(s, 23, 2) <= 59
  {
    assert s[5] == '0' && s[6] == '2' && s[8] == '2' && s[9] == '9' by {
      assert s[5..10][0] == '0' && s[5..10][1] == '2' && s[5..10][3] == '2' && s[5..10][4] == '9';
    }
    TwoDigits(s, 5);
    TwoDigits(s, 8);
    FourDigits(s, 0);
  }

  /** Days in the years before `y` (proleptic Gregorian calendar). */
  function DaysBeforeYear(y: int): int
    requires y >= 1
  {
    365 * (y - 1) + (y - 1) / 4 - (y - 1) / 100 + (y - 1) / 400
  }

  /** Days in the months of year `y` before month `m`. */
  function DaysBeforeMonth(y: int, m: int): (n: int)
    requires 1 <= m <= 12
    ensures n >= 0
  {
    if m == 1 then 0 else DaysBeforeMonth(y, m - 1) + DaysInMonth(y, m - 1)
  }

  /** Python's `date.toordinal()`: 0001-01-01 is day 1. */
  function Ordinal(st: Stamp): int
    requires Valid(st)
  {
    DaysBeforeYear(st.year) + DaysBeforeMonth(st.year, st.month) + st.day
  }

  /** `date(1970, 1, 1).toordinal()`. */
  const EpochOrdinal := 719163

  /** The UTC offset in seconds, east positive. */
  function OffsetSeconds(st: Stamp): int {
    (if st.west then -1 else 1) * (st.offsetHours * 3600 + st.offsetMinutes * 60)
  }

  /** The instant an aware datetime denotes: its wall-clock time minus its
      UTC offset. */
  function ToInstant(st: Stamp): Instant
    requires Valid(st)
  {
    (Ordinal(st) - EpochOrdinal) * 86400 + st.hour * 3600 + st.minute * 60 + st.second
    - OffsetSeconds(st)
  }

  /** 1970-01-01 00:00:00 +0000 is instant 0. */
  lemma ToInstantEpoch()
    ensures ToInstant(Stamp(1970, 1, 1, 0, 0, 0, false, 0, 0)) == 0
  {
    assert DaysBeforeYear(1970) == 719162;
  }

  /** The same wall-clock time written with offset `+hh:mm` is `hh` hours and
      `mm` minutes earlier than at `+0000`, and with `-hh:mm` that much
      later. */
  lemma ToInstantOffset(st: Stamp)
    requires Valid(st)
    ensures var utc := st.(west := false, offsetHours := 0, offsetMinutes := 0);
      && (!st.west ==> ToInstant(st) == ToInstant(utc) - (3600 * st.offsetHours + 60 * st.offsetMinutes))
      && (st.west ==> ToInstant(st) == ToInstant(utc) + (3600 * st.offsetHours + 60 * st.offsetMinutes))
  {
  }

  /** Days in year `y`. */
  function YearLength(y: int): int {
    if IsLeap(y) then 366 else 365
  }

  /** The months before December and December itself fill the year. */
  lemma MonthsFillYear(y: int)
    ensures DaysBeforeMonth(y, 12) + DaysInMonth(y, 12) == YearLength(y)
  {
    var feb := DaysInMonth(y, 2);
    assert DaysBeforeMonth(y, 2) == 31;
    assert DaysBeforeMonth(y, 3) == 31 + feb;
    assert DaysBeforeMonth(y, 4) == 62 + feb;
    assert DaysBeforeMonth(y, 5) == 92 + feb;
    assert DaysBeforeMonth(y, 6) == 123 + feb;
    assert DaysBeforeMonth(y, 7) == 153 + feb;
    assert DaysBeforeMonth(y, 8) == 184 + feb;
    assert DaysBeforeMonth(y, 9) == 215 + feb;
    assert DaysBeforeMonth(y, 10) == 245 + feb;
    assert DaysBeforeMonth(y, 11) == 276 + feb;
    assert DaysBeforeMonth(y, 12) == 306 + feb;
  }

  /** A month ends no later than any later month begins. */
  lemma {:induction false} MonthBeforeMonth(y: int, m1: int, m2: int)
    requires 1 <= m1 < m2 <= 12
    ensures DaysBeforeMonth(y, m1) + DaysInMonth(y, m1) <= DaysBeforeMonth(y, m2)
    decreases m2
  {
    if m1 < m2 - 1 {
      MonthBeforeMonth(y, m1, m2 - 1);
    }
  }

  /** Counting from year `y` to year `y + 1` adds the length of year `y`. */
  lemma DaysBeforeNextYear(y: int)
    requires y >= 1
    ensures DaysBeforeYear(y + 1) == DaysBeforeYear(y) + YearLength(y)
  {
    LeapDayStep(y);
  }

  /** Each of the three counts of multiples grows by one from `y - 1` to `y`
      exactly when `y` is such a multiple. */
  lemma MultiplesStep(y: int)
    requires y >= 1
    ensures y / 4 - (y - 1) / 4 == if y % 4 == 0 then 1 else 0
    ensures y / 100 - (y - 1) / 100 == if y % 100 == 0 then 1 else 0
    ensures y / 400 - (y - 1) / 400 == if y % 400 == 0 then 1 else 0
  {
  }

  /** A multiple of 400 is a multiple of 100, which is a multiple of 4. */
  lemma MultiplesNest(y: int)
    ensures y % 400 == 0 ==> y % 100 == 0
    ensures y % 100 == 0 ==> y % 4 == 0
  {
    if y % 100 == 0 {
      var k := y / 100;
      assert y == 4 * (25 * k);
    }
    if y % 400 == 0 {
      var k := y / 400;
      assert y == 100 * (4 * k);
    }
  }

  /** The leap days counted before year `y + 1` exceed those before `y` by
      one exactly when `y` is a leap year. */
  lemma LeapDayStep(y: int)
    requires y >= 1
    ensures (y / 4 - y / 100 + y / 400) - ((y - 1) / 4 - (y - 1) / 100 + (y - 1) / 400)
            == if IsLeap(y) then 1 else 0
  {
    MultiplesStep(y);
    MultiplesNest(y);
  }

  /** A year ends no later than any later year begins. */
  lemma {:induction false} YearBeforeYear(y1: int, y2: int)
    requires 1 <= y1 < y2
    ensures DaysBeforeYear(y1) + YearLength(y1) <= DaysBeforeYear(y2)
    decreases y2
  {
    DaysBeforeNextYear(y2 - 1);
    if y1 < y2 - 1 {
      YearBeforeYear(y1, y2 - 1);
    }
  }

  /** The calendar date of a stamp precedes that of another. */
  predicate DateBefore(a: Stamp, b: Stamp) {
    || a.year < b.year
    || (a.year == b.year && a.month < b.month)
    || (a.year == b.year && a.month == b.month && a.day < b.day)
  }

  /** The wall-clock reading of a stamp precedes that of another. */
  predicate WallBefore(a: Stamp, b: Stamp) {
    || DateBefore(a, b)
    || (a.year == b.year && a.month == b.month && a.day == b.day &&
        (|| a.hour < b.hour
         || (a.hour == b.hour && a.minute < b.minute)
         || (a.hour == b.hour && a.minute == b.minute && a.second < b.second)))
  }

  /** Day numbers follow the calendar order. */
  lemma OrdinalOrder(a: Stamp, b: Stamp)
    requires Valid(a) && Valid(b) && DateBefore(a, b)
    ensures Ordinal(a) < Ordinal(b)
  {
    if a.year < b.year {
      assert Ordinal(a) <= DaysBeforeYear(a.year) + DaysBeforeMonth(a.year, a.month) + DaysInMonth(a.year, a.month);
      if a.month < 12 {
        MonthBeforeMonth(a.year, a.month, 12);
      }
      MonthsFillYear(a.year);
      YearBeforeYear(a.year, b.year);
    } else if a.month < b.month {
      MonthBeforeMonth(a.year, a.month, b.month);
    }
  }

  /** Between two stamps written with the same UTC offset, the instant order
      is the wall-clock order, and equal readings denote the same instant. */
  lemma ToInstantOrder(a: Stamp, b: Stamp)
    requires Valid(a) && Valid(b) && OffsetSeconds(a) == OffsetSeconds(b)
    ensures ToInstant(a) < ToInstant(b) <==> WallBefore(a, b)
    ensures ToInstant(a) == ToInstant(b) <==> !WallBefore(a, b) && !WallBefore(b, a)
  {
    if DateBefore(a, b) {
      OrdinalOrder(a, b);
    } else if DateBefore(b, a) {
      OrdinalOrder(b, a);
    }
  }
}
